=== FILE: README.md ===
# Discord Service Monitor — a Dafny model

Discord Service Monitor is a Discord bot. For every guild (Discord server) it
has joined, it keeps a list of network endpoints (`name`, `IP:port`, `tcp` or `udp`)
in a relational store. Each time the gateway heartbeat clock passes the configured
interval, and whenever a user asks with `/monitor refresh`, it probes every endpoint
and keeps one status message per guild up to date. That message is a fenced code
block: a calendar line with the time, then one green or red entry per endpoint.
Users manage the list with `/monitor add`, `/monitor remove` and `/monitor wipe`.
On start-up the bot syncs its guild roster into the store and registers the
`monitor` command once per guild.

This project models that core as pure functions over an immutable store:

- `Wrappers`, `Seqs`, `Strings`: option values; first-match and filter over
  sequences; PHP's `explode`/`implode`, `rtrim` and decimal text of integers.
- `Assets` (`src/assets/Server.php`): the `Server` value and its two-line text form.
- `Report`: the status message text, and a parser that reads it back.
- `Store`: guild, server and configuration rows; the lookups the bot makes. A lookup
  that returns one row (`get`, `has`) returns the first matching row in store order.
- `Reconcile`: one update pass for one guild. Also the handler that records the id
  of a newly posted status message.
- `Scheduler`: the heartbeat accumulator.
- `Activity`: the presence text ("N Discord servers!").
- `Lifecycle`: the start-up roster sync and the one-time command registration.
- `AddressPattern`: the regular expression `add` checks addresses with, given a
  backtracking semantics and decided by a scan.
- `Commands`: the `add`, `remove`, `wipe` and `refresh` subcommands.

What is passed in as parameters:

- the current time, as a timestamp string;
- the probe results, one boolean per probe target, in load order;
- the Discord roster, the invoking guild and the posted message;
- the environment values `BOT_ID`, `SKIP_GUILD_IDS` and `PING_EVERY_SECONDS`.

Discord calls come out as values: the `Action` of a pass, the `WipeAction` of a wipe,
and the `Reply` of a command.

## Model

| member | source | states |
|---|---|---|
| Assets.NewServer | src/assets/Server.php:11-16 | a new server holds the given name and address; it is offline unless told otherwise |
| Assets.SetOnline | src/assets/Server.php:18-21 | setting `online` changes the flag and leaves the name and address alone |
| Assets.ToString | src/assets/Server.php:28-37 | the text starts with the green glyph exactly when the server is online, and with the red one exactly when it is offline |
| Assets.ToStringSplit | src/assets/Server.php:36 | the text is the glyph and name, then a newline and the device glyph, then the address |
| Assets.ParseToString | src/assets/Server.php:28-37 | for a name without a newline, reading the status text back gives the same server |
| Assets.ToStringInjective | src/assets/Server.php:28-37 | two servers whose names have no newline get the same text only if they are equal |
| Report.Render | src/run.php:179-205 | the message is the calendar header, the entries, then the closing fence; the trailing `rtrim` removes nothing because the text ends in the fence |
| Report.RenderIsJoinedLines | src/run.php:179-205 | the message is its lines joined by newlines: header, blank, then per entry status, device, blank, then the fence |
| Report.ParseRender | src/run.php:179-205 | when no name, address or timestamp contains a newline, the time and the entries, in order, can be read back from the message |
| Store.FirstGuildRef | src/run.php:87 | the id lookup by Discord id finds a row exactly when the guild has one, and returns that row's internal id |
| Store.ActiveGuildRef | src/run.php:169 | the lookup restricted to rows that are not soft-deleted finds a row exactly when such a row exists, and returns the internal id of an active row of the guild |
| Store.ActiveIsFirst | src/run.php:165-169 | once the guild has no soft-deleted row, both lookups give the same internal id |
| Store.ActiveServers | src/run.php:170 | every loaded server is active and belongs to the guild, every active server of the guild is loaded, and none are loaded exactly when the guild has no active server |
| Store.ActiveServersInOrder | src/run.php:170 | the loaded servers are the guild's active rows in store order, with none skipped |
| Seqs.FilterInOrder | src/run.php:170 | a `select` with a condition returns exactly the rows meeting it, in store order |
| Store.ConfigValue | src/run.php:210 | a configuration lookup finds a value exactly when a matching row exists, and that row holds the value |
| Store.InsertGuild | src/run.php:59-66 | a new guild row gets the next internal id, the given name, both timestamps set to now, and no deletion mark |
| Store.FirstGuildRefAfterInsert | src/run.php:59-66 | after a guild's first insert, its lookup finds the new internal id |
| Store.InsertConfig | src/run.php:134-139 | a configuration insert appends one `string` row, after which the keyword is found for that guild |
| Reconcile.ProbeTarget | src/run.php:184-188 | the host is the text before the first ':', with `udp://` in front for UDP servers |
| Strings.Split | src/run.php:184 | `explode` gives at least one piece and no piece contains the delimiter |
| Strings.JoinSplit | src/run.php:184 | joining the pieces of `explode` with the delimiter gives the original text back |
| Reconcile.ProbeTargetOfHostPort | src/run.php:184-192 | for `host:port`, the probe goes to that host (with the UDP scheme when the protocol is UDP) and that port |
| Reconcile.ProbeTargets | src/run.php:165-170 | a skipped guild is not probed; otherwise there is one target per active server, in load order |
| Reconcile.Entries | src/run.php:182-199 | each report entry carries its server's name and address, and is online exactly when its probe succeeded |
| Reconcile.Pass | src/run.php:161-227 | nothing is sent exactly when the guild is on the skip list, is soft-deleted, or has no active server; otherwise the text is the rendered report, the channel is the `message_channel` value, a new message is sent exactly when no `message_id` is recorded, and an edit targets the recorded id |
| Reconcile.PassEntriesFollowProbes | src/run.php:182-198 | the i-th entry shows the i-th server's name and the i-th probe result; a UDP server is probed with the UDP scheme |
| Reconcile.OnMessageCreated | src/run.php:229-257 | a message from another author changes nothing; for a bot message, an unknown guild gets a fresh row with the next internal id and the id counter advances, and unless a message id is already recorded for the guild, exactly one `message_id` row holding the message's id is appended; servers and all other configuration rows are kept |
| Reconcile.MessageCreatedIdempotent | src/run.php:229-257 | handling the same message twice is the same as handling it once |
| Reconcile.FirstMessageIdWins | src/run.php:234-256 | after two bot messages for one guild, the recorded id is the first one's, whether or not the first message had to create the guild row |
| Reconcile.SendThenEdit | src/run.php:213-256 | after a pass sends a new message and that message is recorded, the next pass edits that message in the same channel with the same text |
| Scheduler.OnHeartbeat | src/run.php:259-277 | a heartbeat fires every guild's pass and resets the clock exactly when the accumulated time reaches the interval; otherwise it only accumulates |
| Scheduler.Run | src/run.php:259-277 | over a run of heartbeats, each fire uses up at least one interval of the accumulated time; with no fire, all the time is kept |
| Scheduler.ThreeHeartbeats | src/run.php:259-277 | with a 300 s interval, heartbeats of 100, 100 and 150 s fire once, on the third |
| Activity.ActivityText | src/run.php:144-151 | the text is the guild count followed by the plural wording exactly when the count is more than one |
| Activity.UpdateActivity | src/run.php:153-158 | the presence has the given type and the activity text as its name |
| Activity.ActivityTextReadsBack | src/run.php:144-151 | the guild count can be read back from the start of the text |
| Lifecycle.RenameGuild | src/run.php:75-84 | every row of the guild gets the new name and an updated time; other rows and all other tables are unchanged |
| Lifecycle.EnsureCommands | src/run.php:87-140 | commands are registered exactly when the guild has no `commands_registered` marker, and afterwards the marker exists |
| Lifecycle.SyncGuild | src/run.php:54-140 | an unknown guild is inserted and the id counter advances, a soft-deleted guild ends the loop, a known guild is renamed; a turn that goes on registers the commands exactly when the guild had no `commands_registered` marker, appends exactly that marker and nothing else to the configurations, leaves the guild with a row and a marker, and never changes servers |
| Lifecycle.Sync | src/run.php:50-142 | the roster loop as written never changes servers, only appends configurations, never removes guild rows, and registers only roster guilds |
| Lifecycle.SyncAppendsOnlyMarkers | src/run.php:88-139 | the roster loop appends one `commands_registered` row per guild whose commands it registers, and no other configuration row |
| Lifecycle.SyncGuildKeepsDeleted | src/run.php:59-84 | a turn changes no guild's soft-delete state |
| Lifecycle.SyncGuildKeepsOthers | src/run.php:59-84 | a turn changes no row of any other guild |
| Lifecycle.SyncGuildKeepsReady | src/run.php:54-140 | a guild that already has a row and a marker keeps both through another guild's turn |
| Lifecycle.SyncGuildOnReady | src/run.php:75-88 | a known guild with a marker gets renamed only: no insert and no registration |
| Lifecycle.SyncKeepsDeleted | src/run.php:54-141 | the sync changes no guild's soft-delete state |
| Lifecycle.SyncKeepsReady | src/run.php:54-141 | the sync keeps every guild that had a row and a marker in that state |
| Lifecycle.SyncMakesReady | src/run.php:54-141 | every roster guild before the first soft-deleted one ends with a row and a marker |
| Lifecycle.SyncOnReadyAddsNothing | src/run.php:54-141 | a sync over guilds that are all set up inserts nothing and registers nothing |
| Lifecycle.SyncTwiceAddsNothing | src/run.php:54-141 | a second sync over the same roster registers no commands and inserts no guild row or marker |
| Lifecycle.SyncStopsAtDeleted | src/run.php:71-73 | the sync's result is the result of syncing only the roster before the first soft-deleted guild |
| Lifecycle.SyncSkippingDeleted | src/run.php:68-73 | the loop as its comment describes it, skipping soft-deleted guilds: it keeps servers, only appends configurations and registers only roster guilds |
| Lifecycle.SyncLeavesDeletedAlone | src/run.php:71-73 | a soft-deleted guild's rows are untouched and its commands are never registered |
| Lifecycle.SkippingAppendsOnlyMarkers | src/run.php:88-139 | the skipping loop likewise appends one `commands_registered` row per registered guild and nothing else |
| Lifecycle.SkippingKeepsDeleted | src/run.php:68-73 | the skipping sync changes no guild's soft-delete state |
| Lifecycle.SkippingKeepsReady | src/run.php:54-141 | the skipping sync keeps every set-up guild set up |
| Lifecycle.SkippingMakesAllReady | src/run.php:68-73 | with skipping, every roster guild that is not soft-deleted ends with a row and a marker |
| Lifecycle.DeletedGuildBlocksLaterGuilds | src/run.php:71-73 | a soft-deleted guild first in the roster keeps the next guild from getting a row or its commands; skipping gives it a row and its marker, and registers its commands and only its commands |
| AddressPattern.DigitRun | src/run.php:291 | the scan takes the longest run of digits at a position |
| AddressPattern.HasIpPortIsSearch | src/run.php:291 | the scan accepts an address exactly when some substring matches `[0-9]{1,3}` three times with dots, then `:` and `[0-9]{1,4}` |
| AddressPattern.AcceptedInAnyContext | src/run.php:291 | the pattern is not anchored: text around an accepted address is accepted too |
| AddressPattern.AcceptsOneDigitGroups | src/run.php:291 | four one-digit groups joined by dots, a ':' and a port starting with a digit are accepted |
| AddressPattern.AcceptsPlainAddress | src/run.php:291-292 | the example from the error text, `1.1.1.1:1000`, is accepted |
| AddressPattern.RejectsHostName | src/run.php:291-292 | a host name such as `localhost:80` is rejected |
| Commands.Add | src/run.php:285-312 | a server is added exactly when the address matches and the guild has no active server with that name; an invalid address is reported first; a valid address with a taken name gets the duplicate-name reply; otherwise nothing changes; an added row carries the guild's internal id, the inputs and no deletion mark |
| Commands.AddedServerIsProbedLast | src/run.php:296-308 | after an add, the guild's next pass loads the new server after the existing ones |
| Commands.Remove | src/run.php:313-336 | a removal happens exactly when an active server of that name exists, and otherwise the reply is the no-such-server text and nothing changes; exactly those rows get updated and deletion times, and afterwards none is active |
| Commands.AddThenRemove | src/run.php:285-336 | removing a server right after adding it leaves every guild's active servers as they were |
| Commands.Wipe | src/run.php:346-376 | a wrong confirmation changes nothing; otherwise exactly the server rows whose guild column equals the Discord id are marked deleted, the deletion targets the first `message_id` row matched by the Discord id, the guild's internal-id configurations are deleted and every other configuration row is kept in order |
| Commands.DropGuildConfigs | src/run.php:372 | deleting a guild's configurations leaves no row of that guild and keeps every other row, in order |
| Commands.MessageIdBySnowflake | src/run.php:366 | the lookup by Discord id finds a value exactly when some `message_id` row's guild column equals the Discord id, and it is the first such row's value |
| Commands.ColumnIsSnowflakeIff | src/run.php:357 | an internal-id column equals a Discord id exactly when the id is a canonical decimal whose value is the internal id |
| Commands.SnowflakeMatchesOneId | src/run.php:357 | at most one internal id compares equal to a given Discord id |
| Commands.WipeIntended | src/run.php:346-376 | keyed by the internal id: exactly the guild's server rows are marked deleted and all others kept, the guild's configurations are deleted and all others kept in order, and the deletion targets the recorded message id |
| Commands.WipeIntendedSilencesPasses | src/run.php:346-376 | after the internal-id wipe, the guild has nothing to probe and its next pass sends nothing |
| Commands.WipeMissesServers | src/run.php:357-366 | for a guild with internal id 1 and Discord id 900, the wipe as written keeps the server active and its `message_id` lookup finds nothing; in this model, which carries on past the message fetch, the next pass then chooses to send a new report to a null channel |
| Commands.Refresh | src/run.php:337-342 | refresh replies with the refresh text and its action is exactly the pass the scheduler runs for that guild: nothing for a skipped guild or one with no active server, otherwise the same channel, send-or-edit choice and text |

## Left out

- The Discord gateway, REST calls and promises: they become returned values. The
  message and channel fetches before an edit or delete, and their failures, are not modelled.
- `fsockopen` and its three-second timeout: the probe results are an input.
- SQL, Medoo and MySQL. Rows are kept in insertion order; `get` is the first match.
  Numeric coercion between a text value and an integer column is modelled only as
  "the decimal text of the internal id equals the Discord id". So a snowflake with a
  leading zero is not matched, though MySQL would match it.
- PHP's loose `==` and `in_array`: comparisons are exact on strings.
- Time: Carbon and the time zone become timestamp strings given by the caller.
  One `now` is used per handler, where the source reads the clock for each field.
- Reconcile.Pass: a stored address whose port field is not a number (such as
  `db:x 10.0.0.1:5432`, which the unanchored check on `add` accepts) still yields a
  report here. Under PHP 8, `fsockopen` then throws a TypeError that `@` does not
  silence, and the handler ends without sending. PHP's numeric-string rules are not
  modelled; the probe result for such a target is an input like any other.
- Scheduler.OnHeartbeat: the heartbeat delta is a float in the source; here it is
  a whole number of seconds.
- Strings are sequences of Unicode characters, not UTF-8 bytes; the device glyph is
  two characters (U+1F5A5, U+FE0F).
- The logger lines, the `about` and unknown-command replies, and the `monitor`
  command's option payload are not modelled; registration is a flag on the turn.
- The `monitor` switch itself has no dispatcher here; each subcommand is its own function.
- Splitting an address at its last ':' is not modelled: the host is the text before
  the first ':' and the port the next field, as `explode` makes them.
- Trimming trailing newlines from the report is not modelled beyond what the code does:
  `rtrim($text, "\n\n")` is kept, and it removes nothing because the text ends in the fence.
- Strict address validation is not modelled: the pattern is unanchored, as written, so a
  longer address that contains `d.d.d.d:d` is accepted, and octet ranges are not checked.
- Commands.Wipe: the model carries on after the message fetch on line 367 and goes on
  to delete the configurations (line 372) and reply (line 374). The Discord library is
  not part of this model; under the bug the fetch receives a null message id, and if
  the library rejects it (a PHP 8 TypeError for a `string` parameter) the handler ends
  there, the configurations and the stored message stay, and no reply is sent. What
  the model shows for certain is what lines 357 and 366 alone do: the server stays
  active and the message id lookup is null.
- Commands.WipeIntended: the same fetch receives a null message id when the guild never
  had a report recorded; the model then still deletes the configurations and replies.
- The channel of the message deletion in `wipe` is not modelled: the source sends it to
  the invoking channel; only the message id is kept.

## Findings

| source | as written | input that shows it | evidently intended | confidence | as-written member | corrected member |
|---|---|---|---|---|---|---|
| src/run.php:71-73 | `return` inside the roster loop ends the whole start-up sync at the first soft-deleted guild | a roster with a soft-deleted guild "1" followed by a newly joined guild "2": guild 2 gets no row and no commands | skip that guild and go on with the rest, as the comment says | high, not executed | Lifecycle.DeletedGuildBlocksLaterGuilds | Lifecycle.SkippingMakesAllReady |
| src/run.php:357-366 | `wipe` matches the servers and the `message_id` configuration by the Discord guild id, but those columns hold the internal id | a guild with internal id 1 and Discord id "900" that has one active server and a recorded message: the server stays active and the `message_id` lookup on line 366 returns null, so line 367 asks the library to fetch a null message id | match by the internal id, as the configuration delete on line 372 does | high, not executed | Commands.WipeMissesServers | Commands.WipeIntendedSilencesPasses |

=== FILE: activity.dfy ===
/** The bot's presence text: how many Discord servers it is watching. */
module Activity {
  import opened Wrappers
  import opened Strings

  datatype Presence = Presence(activityType: int, name: string)

  const Plural: string := " Discord servers!"
  const Singular: string := " Discord server!"

  /** The guild count in decimal, then the plural wording for more than one guild
      and the singular wording otherwise (zero included). */
  function ActivityText(guildCount: nat): (r: string)
    ensures NatToString(guildCount) <= r
    ensures r[|NatToString(guildCount)|..] == Plural <==> guildCount > 1
    ensures r[|NatToString(guildCount)|..] == Singular <==> guildCount <= 1
  {
    var d := NatToString(guildCount);
    var r := d + (if guildCount > 1 then Plural else Singular);
    assert r[|d|..] == (if guildCount > 1 then Plural else Singular);
    assert Plural != Singular by { assert Plural[15] != Singular[15]; }
    r
  }

  /** The presence update for the given activity type. */
  function UpdateActivity(activityType: int, guildCount: nat): (p: Presence)
    ensures p.activityType == activityType
    ensures p.name == ActivityText(guildCount)
  {
    Presence(activityType, ActivityText(guildCount))
  }

  /** The leading run of digits of a text. */
  function LeadingDigits(s: string): (r: string)
    ensures r <= s && AllDigits(r)
    ensures |r| < |s| ==> !IsDigit(s[|r|])
  {
    if |s| > 0 && IsDigit(s[0]) then [s[0]] + LeadingDigits(s[1..]) else ""
  }

  lemma {:induction false} LeadingDigitsOf(d: string, rest: string)
    requires AllDigits(d)
    requires |rest| > 0 && !IsDigit(rest[0])
    ensures LeadingDigits(d + rest) == d
    decreases |d|
  {
    if |d| > 0 {
      assert (d + rest)[1..] == d[1..] + rest;
      LeadingDigitsOf(d[1..], rest);
      assert [d[0]] + d[1..] == d;
    } else {
      assert d + rest == rest;
    }
  }

  /** Reading the leading number of the presence text gives the guild count back. */
  lemma ActivityTextReadsBack(guildCount: nat)
    ensures ParseNat(LeadingDigits(ActivityText(guildCount))) == Some(guildCount)
  {
    var d := NatToString(guildCount);
    var tail := if guildCount > 1 then Plural else Singular;
    assert ActivityText(guildCount) == d + tail;
    LeadingDigitsOf(d, tail);
    ParseNatToString(guildCount);
  }
}

=== FILE: commands.dfy ===
/** The `monitor` slash command's subcommands that touch the store: `add`,
    `remove`, `wipe` and `refresh`. Each returns the new store and the ephemeral
    reply; `wipe` also returns the message deletion it asks Discord for. */
module Commands {
  import opened Wrappers
  import opened Seqs
  import opened Strings
  import opened Store
  import opened AddressPattern
  import opened Reconcile

  datatype Reply =
    | InvalidAddress
    | NameTaken
    | ServerAdded
    | NoSuchServer
    | ServerRemoved
    | RefreshRequested
    | Wiped

  /** The text of each ephemeral reply. */
  function ReplyText(r: Reply): string
  {
    match r
    case InvalidAddress => "Invalid address format, IP:Port is required, ex.: 1.1.1.1:1000."
    case NameTaken => "Server with that name already exists, try again with a different name!"
    case ServerAdded => "Server added! Run the refresh command or wait for the periodic re-ping to see changes."
    case NoSuchServer => "Server with that name doesn't exist, please check for incorrect input and try again!"
    case ServerRemoved => "Server removed! Run the refresh command or wait for the periodic re-ping to see changes."
    case RefreshRequested => "Monitored server refresh requested!"
    case Wiped => "Server Monitor configuration wiped."
  }

  datatype Outcome = Outcome(db: Db, reply: Reply)

  /** The row `add` inserts: soft-delete left null. */
  function NewServerRow(g: GuildRef, name: string, address: string, protocol: string, now: Timestamp): ServerRow
  {
    ServerRow(g, name, address, protocol, now, now, None)
  }

  /** `add name address protocol`: reject an address with no IPv4:port in it, reject a
      name already active in the guild, otherwise append one server row. The guild is
      looked up by its Discord id whatever its soft-delete state. */
  function Add(db: Db, g: GuildId, name: string, address: string, protocol: string, now: Timestamp): (r: Outcome)
    ensures r.reply == ServerAdded <==> HasIpPort(address) && !HasActiveServerNamed(db, FirstGuildRef(db, g), name)
    ensures !HasIpPort(address) ==> r.reply == InvalidAddress
    ensures HasIpPort(address) && HasActiveServerNamed(db, FirstGuildRef(db, g), name) ==> r.reply == NameTaken
    ensures r.reply != ServerAdded ==> r.db == db
    ensures r.reply == ServerAdded ==>
      r.db == db.(servers := db.servers + [NewServerRow(FirstGuildRef(db, g), name, address, protocol, now)])
  {
    if !HasIpPort(address) then Outcome(db, InvalidAddress)
    else
      var dbGuild := FirstGuildRef(db, g);
      if HasActiveServerNamed(db, dbGuild, name) then Outcome(db, NameTaken)
      else Outcome(db.(servers := db.servers + [NewServerRow(dbGuild, name, address, protocol, now)]), ServerAdded)
  }

  predicate IsActiveNamed(row: ServerRow, g: GuildRef, name: string)
  {
    IsActiveServerOf(row, g) && row.name == name
  }

  function Stamp(row: ServerRow, now: Timestamp): ServerRow
  {
    row.(updatedAt := now, deletedAt := Some(now))
  }

  /** `remove name`: soft-delete the guild's active servers with that name, or reply
      that there is none. */
  function Remove(db: Db, g: GuildId, name: string, now: Timestamp): (r: Outcome)
    ensures r.reply == ServerRemoved <==> HasActiveServerNamed(db, FirstGuildRef(db, g), name)
    ensures r.reply != ServerRemoved ==> r.reply == NoSuchServer && r.db == db
    ensures r.db.guilds == db.guilds && r.db.configs == db.configs && r.db.nextId == db.nextId
    ensures |r.db.servers| == |db.servers|
    ensures forall i :: 0 <= i < |db.servers| && IsActiveNamed(db.servers[i], FirstGuildRef(db, g), name) ==>
      r.db.servers[i] == Stamp(db.servers[i], now)
    ensures forall i :: 0 <= i < |db.servers| && !IsActiveNamed(db.servers[i], FirstGuildRef(db, g), name) ==>
      r.db.servers[i] == db.servers[i]
    ensures !HasActiveServerNamed(r.db, FirstGuildRef(db, g), name)
  {
    var dbGuild := FirstGuildRef(db, g);
    if !HasActiveServerNamed(db, dbGuild, name) then Outcome(db, NoSuchServer)
    else
      var servers := seq(|db.servers|, i requires 0 <= i < |db.servers| =>
        if IsActiveNamed(db.servers[i], dbGuild, name) then Stamp(db.servers[i], now) else db.servers[i]);
      Outcome(db.(servers := servers), ServerRemoved)
  }

  /** After a successful `add`, the guild's next pass loads the new server last. */
  lemma AddedServerIsProbedLast(db: Db, g: GuildId, name: string, address: string, protocol: string, now: Timestamp)
    requires Add(db, g, name, address, protocol, now).reply == ServerAdded
    requires !HasDeletedGuild(db, g)
    ensures LoadServers(Add(db, g, name, address, protocol, now).db, g)
      == LoadServers(db, g) + [NewServerRow(FirstGuildRef(db, g), name, address, protocol, now)]
  {
    var ref := FirstGuildRef(db, g);
    var row := NewServerRow(ref, name, address, protocol, now);
    ActiveIsFirst(db, g);
    FilterConcat(db.servers, [row], (r: ServerRow) => IsActiveServerOf(r, ref));
    assert Filter([row], (r: ServerRow) => IsActiveServerOf(r, ref)) == [row];
  }

  /** Removing a server right after adding it leaves every guild's active servers as they were. */
  lemma AddThenRemove(db: Db, g: GuildId, name: string, address: string, protocol: string, now: Timestamp, later: Timestamp)
    requires Add(db, g, name, address, protocol, now).reply == ServerAdded
    ensures var added := Add(db, g, name, address, protocol, now).db;
      && Remove(added, g, name, later).reply == ServerRemoved
      && forall h :: ActiveServers(Remove(added, g, name, later).db, h) == ActiveServers(db, h)
  {
    var ref := FirstGuildRef(db, g);
    var row := NewServerRow(ref, name, address, protocol, now);
    var added := Add(db, g, name, address, protocol, now).db;
    assert FirstGuildRef(added, g) == ref;
    assert IsActiveNamed(added.servers[|db.servers|], ref, name);
    var removed := Remove(added, g, name, later).db;
    forall i | 0 <= i < |db.servers| ensures removed.servers[i] == db.servers[i] {
      assert added.servers[i] == db.servers[i];
    }
    assert removed.servers == db.servers + [Stamp(row, later)];
    forall h ensures ActiveServers(removed, h) == ActiveServers(db, h) {
      FilterConcat(db.servers, [Stamp(row, later)], (r: ServerRow) => IsActiveServerOf(r, h));
      assert Filter([Stamp(row, later)], (r: ServerRow) => IsActiveServerOf(r, h)) == [];
    }
  }

  /** The deletion of the status message that `wipe` asks for; the id is null when the
      lookup finds nothing. */
  datatype WipeAction = DeleteMessage(messageId: Option<string>)

  /** The store after `wipe`, the Discord calls it makes, and its reply (none when the
      confirmation does not match). */
  datatype WipeOutcome = WipeOutcome(db: Db, actions: seq<WipeAction>, reply: Option<Reply>)

  /** A `guild_id` column compared with a Discord guild id: the column holds an internal
      id, so they are equal only when the internal id's decimal text is the snowflake. */
  predicate ColumnIsSnowflake(col: GuildRef, g: GuildId)
  {
    col.Some? && NatToString(col.value.n) == g.snowflake
  }

  /** The comparison holds exactly when the snowflake is a canonical decimal whose value is
      the internal id; so at most one internal id matches a given snowflake. */
  lemma ColumnIsSnowflakeIff(n: nat, g: GuildId)
    ensures ColumnIsSnowflake(Some(DbGuildId(n)), g) <==> Canonical(g.snowflake) && DigitsValue(g.snowflake) == n
  {
    if ColumnIsSnowflake(Some(DbGuildId(n)), g) {
      ParseNatToString(n);
    }
    if Canonical(g.snowflake) && DigitsValue(g.snowflake) == n {
      NatToStringParse(g.snowflake);
    }
  }

  lemma SnowflakeMatchesOneId(m: nat, n: nat, g: GuildId)
    requires ColumnIsSnowflake(Some(DbGuildId(m)), g) && ColumnIsSnowflake(Some(DbGuildId(n)), g)
    ensures m == n
  {
    NatToStringInjective(m, n);
  }

  /** Soft-delete (again, if already soft-deleted) every server row the filter selects. */
  function StampServers(servers: seq<ServerRow>, selected: ServerRow -> bool, now: Timestamp): (r: seq<ServerRow>)
    ensures |r| == |servers|
    ensures forall i :: 0 <= i < |servers| ==> r[i] == if selected(servers[i]) then Stamp(servers[i], now) else servers[i]
  {
    seq(|servers|, i requires 0 <= i < |servers| => if selected(servers[i]) then Stamp(servers[i], now) else servers[i])
  }

  predicate ServerOfSnowflake(row: ServerRow, g: GuildId)
  {
    ColumnIsSnowflake(row.guild, g)
  }

  predicate MessageIdOfSnowflake(row: ConfigRow, g: GuildId)
  {
    ColumnIsSnowflake(row.guild, g) && row.keyword == MessageId
  }

  predicate NotOfGuild(row: ConfigRow, g: GuildRef)
  {
    row.guild != g
  }

  /** `delete("configurations", ["guild_id" => g])`: every row of `g` goes, every other row
      stays, in order. */
  function DropGuildConfigs(configs: seq<ConfigRow>, g: GuildRef): (r: seq<ConfigRow>)
    ensures forall i :: 0 <= i < |r| ==> r[i].guild != g
    ensures exists idx ::
              && IndexedBy(r, configs, idx)
              && forall i :: 0 <= i < |configs| && configs[i].guild != g ==> i in idx
  {
    FilterInOrder(configs, (row: ConfigRow) => NotOfGuild(row, g));
    Filter(configs, (row: ConfigRow) => NotOfGuild(row, g))
  }

  /** `get("configurations", "value", ["guild_id" => <Discord id>, "keyword" => "message_id"])`:
      the value of the first `message_id` row whose guild column equals the Discord id. */
  function MessageIdBySnowflake(db: Db, g: GuildId): (r: Option<string>)
    ensures r.None? <==> forall i :: 0 <= i < |db.configs| ==> !MessageIdOfSnowflake(db.configs[i], g)
    ensures r.Some? ==> exists i :: && 0 <= i < |db.configs| && MessageIdOfSnowflake(db.configs[i], g)
                                    && db.configs[i].value == r.value
                                    && forall j :: 0 <= j < i ==> !MessageIdOfSnowflake(db.configs[j], g)
  {
    match FirstIndex(db.configs, (row: ConfigRow) => MessageIdOfSnowflake(row, g))
    case None => None
    case Some(i) => Some(db.configs[i].value)
  }

  /** `wipe confirmation` as written: only when the confirmation is the guild's current
      name, soft-delete the server rows whose `guild_id` equals the Discord id, look the
      message id up by the Discord id too, ask for that message's deletion, and delete
      every configuration row of the guild's internal id. */
  function Wipe(db: Db, g: GuildId, guildName: string, confirmation: string, now: Timestamp): (r: WipeOutcome)
    ensures guildName != confirmation ==> r == WipeOutcome(db, [], None)
    ensures guildName == confirmation ==> r.reply == Some(Wiped)
    ensures guildName == confirmation ==> r.db.guilds == db.guilds && r.db.nextId == db.nextId
    ensures guildName == confirmation ==> |r.db.servers| == |db.servers|
    ensures guildName == confirmation ==>
      forall i :: 0 <= i < |db.servers| ==>
        r.db.servers[i] == if ColumnIsSnowflake(db.servers[i].guild, g) then Stamp(db.servers[i], now) else db.servers[i]
    ensures guildName == confirmation ==>
      forall i :: 0 <= i < |r.db.configs| ==> r.db.configs[i].guild != FirstGuildRef(db, g)
    ensures guildName == confirmation ==>
      exists idx ::
        && IndexedBy(r.db.configs, db.configs, idx)
        && forall i :: 0 <= i < |db.configs| && db.configs[i].guild != FirstGuildRef(db, g) ==> i in idx
    ensures guildName == confirmation ==> r.actions == [DeleteMessage(MessageIdBySnowflake(db, g))]
  {
    if guildName != confirmation then WipeOutcome(db, [], None)
    else
      var db1 := db.(servers := StampServers(db.servers, (row: ServerRow) => ServerOfSnowflake(row, g), now));
      var dbGuild := FirstGuildRef(db1, g);
      assert dbGuild == FirstGuildRef(db, g);
      var messageId := MessageIdBySnowflake(db1, g);
      var db2 := db1.(configs := DropGuildConfigs(db1.configs, dbGuild));
      WipeOutcome(db2, [DeleteMessage(messageId)], Some(Wiped))
  }

  /** `wipe` as its comments describe it: the same steps, keyed by the guild's internal id. */
  function WipeIntended(db: Db, g: GuildId, guildName: string, confirmation: string, now: Timestamp): (r: WipeOutcome)
    ensures guildName != confirmation ==> r == WipeOutcome(db, [], None)
    ensures guildName == confirmation ==> r.reply == Some(Wiped)
    ensures guildName == confirmation ==> r.db.guilds == db.guilds && r.db.nextId == db.nextId
    ensures guildName == confirmation ==> |r.db.servers| == |db.servers|
    ensures guildName == confirmation ==>
      forall i :: 0 <= i < |db.servers| ==>
        r.db.servers[i] == if db.servers[i].guild == FirstGuildRef(db, g) then Stamp(db.servers[i], now) else db.servers[i]
    ensures guildName == confirmation ==>
      forall i :: 0 <= i < |r.db.configs| ==> r.db.configs[i].guild != FirstGuildRef(db, g)
    ensures guildName == confirmation ==>
      exists idx ::
        && IndexedBy(r.db.configs, db.configs, idx)
        && forall i :: 0 <= i < |db.configs| && db.configs[i].guild != FirstGuildRef(db, g) ==> i in idx
    ensures guildName == confirmation ==> r.actions == [DeleteMessage(ConfigValue(db, FirstGuildRef(db, g), MessageId))]
  {
    if guildName != confirmation then WipeOutcome(db, [], None)
    else
      var dbGuild := FirstGuildRef(db, g);
      var messageId := ConfigValue(db, dbGuild, MessageId);
      var db1 := db.(servers := StampServers(db.servers, (row: ServerRow) => row.guild == dbGuild, now));
      var db2 := db1.(configs := DropGuildConfigs(db1.configs, dbGuild));
      WipeOutcome(db2, [DeleteMessage(messageId)], Some(Wiped))
  }

  /** After the intended `wipe`, the guild's passes post nothing. */
  lemma WipeIntendedSilencesPasses(cfg: Config, db: Db, g: GuildId, guildName: string, now: Timestamp, ts: string)
    ensures var wiped := WipeIntended(db, g, guildName, guildName, now).db;
      && ProbeTargets(cfg, wiped, g) == []
      && Pass(cfg, wiped, g, [], ts) == None
  {
    var wiped := WipeIntended(db, g, guildName, guildName, now).db;
    var ref := FirstGuildRef(db, g);
    assert wiped.guilds == db.guilds;
    if !HasDeletedGuild(wiped, g) {
      ActiveIsFirst(wiped, g);
      assert FirstGuildRef(wiped, g) == ref;
      forall i | 0 <= i < |wiped.servers| ensures !IsActiveServerOf(wiped.servers[i], ref) {
        assert wiped.servers[i] == if db.servers[i].guild == ref then Stamp(db.servers[i], now) else db.servers[i];
      }
      NoActiveServers(wiped, ref);
    }
  }

  lemma NoActiveServers(db: Db, g: GuildRef)
    requires forall i :: 0 <= i < |db.servers| ==> !IsActiveServerOf(db.servers[i], g)
    ensures ActiveServers(db, g) == []
  {
  }

  /** A store where the guild with Discord id "900" has internal id 1, one active server,
      a bound channel and a recorded status message. */
  function WipeExample(): Db
  {
    Db([GuildRow(DbGuildId(1), GuildId("900"), "Guild", "t0", "t0", None)],
       [ServerRow(Some(DbGuildId(1)), "web", "1.1.1.1:80", "tcp", "t0", "t0", None)],
       [ConfigRow(Some(DbGuildId(1)), MessageChannel, "string", "42"),
        ConfigRow(Some(DbGuildId(1)), MessageId, "string", "77")],
       2)
  }

  /** As written, `wipe` keeps the guild's server active, asks to delete a null message id,
      and the next pass posts a new report to a null channel; the intended `wipe` leaves
      nothing for the pass to post. */
  lemma WipeMissesServers(cfg: Config, ts: string)
    requires GuildId("900").snowflake !in SkipList(cfg)
    ensures var r := Wipe(WipeExample(), GuildId("900"), "Guild", "Guild", "t1");
      && r.db.servers == WipeExample().servers
      && r.actions == [DeleteMessage(None)]
      && |ProbeTargets(cfg, r.db, GuildId("900"))| == 1
      && Pass(cfg, r.db, GuildId("900"), [true], ts).Some?
      && Pass(cfg, r.db, GuildId("900"), [true], ts).value == SendNew(None, Pass(cfg, r.db, GuildId("900"), [true], ts).value.text)
    ensures WipeIntended(WipeExample(), GuildId("900"), "Guild", "Guild", "t1").actions == [DeleteMessage(Some("77"))]
  {
    var db := WipeExample();
    var g := GuildId("900");
    assert NatToString(1) == "1";
    assert !ColumnIsSnowflake(db.servers[0].guild, g);
    assert !MessageIdOfSnowflake(db.configs[0], g) && !MessageIdOfSnowflake(db.configs[1], g);
    var r := Wipe(db, g, "Guild", "Guild", "t1");
    assert r.db.servers == db.servers;
    assert db.guilds[0].guildId == g;
    assert FirstGuildRef(db, g) == Some(DbGuildId(1));
    assert r.db.configs == [];
    assert !HasDeletedGuild(r.db, g);
    assert IsActiveGuild(r.db.guilds[0], g);
    assert ActiveGuildRef(r.db, g) == Some(DbGuildId(1));
    assert LoadServers(r.db, g) == r.db.servers by {
      assert Filter(r.db.servers[1..], (row: ServerRow) => IsActiveServerOf(row, Some(DbGuildId(1)))) == [];
    }
    assert !HasConfig(r.db, Some(DbGuildId(1)), MessageId);
    assert ConfigValue(r.db, Some(DbGuildId(1)), MessageChannel) == None;
    assert IsConfig(db.configs[1], Some(DbGuildId(1)), MessageId);
    assert !IsConfig(db.configs[0], Some(DbGuildId(1)), MessageId);
    assert ConfigValue(db, Some(DbGuildId(1)), MessageId) == Some("77");
  }

  /** `refresh`: reply, then run the same pass the scheduler runs, for the invoking guild. */
  function Refresh(cfg: Config, db: Db, g: GuildId, probes: seq<bool>, ts: string): (r: (Reply, Option<Action>))
    requires |probes| == |ProbeTargets(cfg, db, g)|
    ensures r.0 == RefreshRequested
    ensures r.1 == Pass(cfg, db, g, probes, ts)
    ensures r.1.None? <==> Skipped(cfg, db, g) || |LoadServers(db, g)| == 0
    ensures r.1.Some? ==> r.1.value.text == Report.Render(ts, Entries(LoadServers(db, g), probes))
  {
    (RefreshRequested, Pass(cfg, db, g, probes, ts))
  }
}

=== FILE: lifecycle.dfy ===
/** The start-up roster sync: every guild the bot has joined gets a row (created
    on first sight, renamed and re-stamped afterwards) and a one-time command
    registration marked by a `commands_registered` configuration. Reaching a
    soft-deleted guild ends the whole sync, not just that guild's turn. */
module Lifecycle {
  import opened Wrappers
  import opened Seqs
  import opened Store

  /** A guild as the Discord roster lists it. */
  datatype RosterGuild = RosterGuild(id: GuildId, name: string)

  /** The outcome of one guild's turn: the loop ends, or it goes on with the new store
      and says whether the guild's commands were registered in this turn. */
  datatype Step = Stop | Continue(db: Db, registered: bool)

  /** The store after the sync and the guilds whose commands were registered, in order. */
  datatype SyncResult = SyncResult(db: Db, registered: seq<GuildId>)

  /** A guild the sync has dealt with: it has a row, none soft-deleted, and its marker. */
  predicate Ready(db: Db, g: GuildId)
  {
    HasGuild(db, g) && !HasDeletedGuild(db, g) && HasConfig(db, FirstGuildRef(db, g), CommandsRegistered)
  }

  /** `update("guilds", [name, updated_at], ["guild_id" => g])` */
  function RenameGuild(db: Db, g: GuildId, name: string, now: Timestamp): (db': Db)
    ensures |db'.guilds| == |db.guilds|
    ensures forall i :: 0 <= i < |db.guilds| && db.guilds[i].guildId == g ==>
      db'.guilds[i] == db.guilds[i].(name := name, updatedAt := now)
    ensures forall i :: 0 <= i < |db.guilds| && db.guilds[i].guildId != g ==> db'.guilds[i] == db.guilds[i]
    ensures db'.servers == db.servers && db'.configs == db.configs && db'.nextId == db.nextId
  {
    var rows := seq(|db.guilds|, i requires 0 <= i < |db.guilds| =>
      if db.guilds[i].guildId == g then db.guilds[i].(name := name, updatedAt := now) else db.guilds[i]);
    db.(guilds := rows)
  }

  /** Guild rows that keep their ids and external ids, possibly with rows appended,
      give every already-known guild the same first row. */
  lemma FirstGuildRefStable(db: Db, db': Db, h: GuildId)
    requires HasGuild(db, h) && |db'.guilds| >= |db.guilds|
    requires forall i :: 0 <= i < |db.guilds| ==>
      db'.guilds[i].guildId == db.guilds[i].guildId && db'.guilds[i].id == db.guilds[i].id
    ensures FirstGuildRef(db', h) == FirstGuildRef(db, h)
  {
    var p := (row: GuildRow) => IsGuild(row, h);
    var i := FirstIndex(db.guilds, p);
    var j := FirstIndex(db'.guilds, p);
    assert p(db'.guilds[i.value]);
    assert j.Some? && j.value <= i.value;
    assert p(db.guilds[j.value]);
  }

  /** The second half of a guild's turn: register its commands unless already marked. */
  function EnsureCommands(db: Db, g: GuildId): (s: Step)
    requires HasGuild(db, g)
    ensures s.Continue?
    ensures s.registered <==> !HasConfig(db, FirstGuildRef(db, g), CommandsRegistered)
    ensures s.db.configs == db.configs + (if s.registered then [ConfigRow(FirstGuildRef(db, g), CommandsRegistered, "string", "true")] else [])
    ensures s.db.guilds == db.guilds && s.db.servers == db.servers && s.db.nextId == db.nextId
    ensures HasConfig(s.db, FirstGuildRef(db, g), CommandsRegistered)
  {
    var ref := FirstGuildRef(db, g);
    if !HasConfig(db, ref, CommandsRegistered) then
      Continue(InsertConfig(db, ref, CommandsRegistered, "true"), true)
    else Continue(db, false)
  }

  /** The configuration rows a turn appends: the guild's marker if it registered, else none. */
  function Marker(registered: bool, ref: GuildRef): seq<ConfigRow>
  {
    if registered then [ConfigRow(ref, CommandsRegistered, "string", "true")] else []
  }

  /** One guild's turn of the roster loop. */
  function SyncGuild(db: Db, x: RosterGuild, now: Timestamp): (s: Step)
    ensures !HasGuild(db, x.id) ==> s.Continue? && s.db.guilds == InsertGuild(db, x.id, x.name, now).guilds
    ensures HasGuild(db, x.id) && HasDeletedGuild(db, x.id) ==> s == Stop
    ensures HasGuild(db, x.id) && !HasDeletedGuild(db, x.id) ==>
      s.Continue? && s.db.guilds == RenameGuild(db, x.id, x.name, now).guilds && s.db.nextId == db.nextId
    ensures !HasGuild(db, x.id) ==> s.db.nextId == db.nextId + 1
    ensures s.Continue? <==> !HasDeletedGuild(db, x.id)
    ensures s.Continue? ==> Ready(s.db, x.id)
    ensures s.Continue? ==> (s.registered <==> !HasConfig(db, FirstGuildRef(s.db, x.id), CommandsRegistered))
    ensures s.Continue? ==> s.db.configs == db.configs + Marker(s.registered, FirstGuildRef(s.db, x.id))
    ensures s.Continue? ==> s.db.servers == db.servers && db.configs <= s.db.configs
  {
    if !HasGuild(db, x.id) then
      var db1 := InsertGuild(db, x.id, x.name, now);
      assert db1.guilds[|db.guilds|].guildId == x.id;
      assert forall i :: 0 <= i < |db.guilds| ==> db1.guilds[i] == db.guilds[i];
      assert !HasDeletedGuild(db1, x.id);
      FirstGuildRefAfterInsert(db, x.id, x.name, now);
      EnsureCommands(db1, x.id)
    else if HasDeletedGuild(db, x.id) then Stop
    else
      var db1 := RenameGuild(db, x.id, x.name, now);
      assert HasGuild(db1, x.id);
      FirstGuildRefStable(db, db1, x.id);
      EnsureCommands(db1, x.id)
  }

  /** The guild is listed in the roster. */
  predicate InRoster(roster: seq<RosterGuild>, g: GuildId)
  {
    exists i :: 0 <= i < |roster| && roster[i].id == g
  }

  /** What a sync result promises about the store and roster it started from. */
  predicate SyncGrows(db: Db, roster: seq<RosterGuild>, r: SyncResult)
  {
    && r.db.servers == db.servers
    && db.configs <= r.db.configs
    && |db.guilds| <= |r.db.guilds|
    && |r.registered| <= |roster|
    && forall k :: 0 <= k < |r.registered| ==> InRoster(roster, r.registered[k])
  }

  /** One turn that goes on, followed by a sync of the rest, keeps those promises. */
  lemma SyncGrowsStep(db: Db, db1: Db, roster: seq<RosterGuild>, registered: bool, rest: SyncResult)
    requires |roster| > 0
    requires db1.servers == db.servers && db.configs <= db1.configs && |db.guilds| <= |db1.guilds|
    requires SyncGrows(db1, roster[1..], rest)
    ensures SyncGrows(db, roster, SyncResult(rest.db, (if registered then [roster[0].id] else []) + rest.registered))
  {
    var ids := (if registered then [roster[0].id] else []) + rest.registered;
    forall k | 0 <= k < |ids| ensures InRoster(roster, ids[k]) {
      if registered && k == 0 {
        assert roster[0].id == ids[k];
      } else {
        var k' := if registered then k - 1 else k;
        assert ids[k] == rest.registered[k'];
        var j :| 0 <= j < |roster[1..]| && roster[1..][j].id == rest.registered[k'];
        assert roster[1..][j] == roster[j + 1];
      }
    }
  }

  /** The roster loop as written: a soft-deleted guild ends it. */
  function Sync(db: Db, roster: seq<RosterGuild>, now: Timestamp): (r: SyncResult)
    ensures r.db.servers == db.servers
    ensures db.configs <= r.db.configs
    ensures |db.guilds| <= |r.db.guilds|
    ensures |r.registered| <= |roster|
    ensures forall k :: 0 <= k < |r.registered| ==> InRoster(roster, r.registered[k])
    decreases |roster|
  {
    if |roster| == 0 then SyncResult(db, [])
    else
      match SyncGuild(db, roster[0], now)
      case Stop => SyncResult(db, [])
      case Continue(db1, registered) =>
        var rest := Sync(db1, roster[1..], now);
        SyncGrowsStep(db, db1, roster, registered, rest);
        SyncResult(rest.db, (if registered then [roster[0].id] else []) + rest.registered)
  }

  /** A configuration row that records a guild's command registration. */
  predicate IsMarker(row: ConfigRow)
  {
    row.keyword == CommandsRegistered && row.value == "true"
  }

  /** Markers appended by one turn, then markers appended by the rest, are markers
      appended to what was there before. */
  lemma MarkersCompose(c0: seq<ConfigRow>, c1: seq<ConfigRow>, c2: seq<ConfigRow>, registered: bool, ref: GuildRef, n: nat)
    requires c1 == c0 + Marker(registered, ref)
    requires |c2| == |c1| + n && c1 <= c2
    requires forall k :: |c1| <= k < |c2| ==> IsMarker(c2[k])
    ensures |c2| == |c0| + (if registered then 1 else 0) + n
    ensures forall k :: |c0| <= k < |c2| ==> IsMarker(c2[k])
  {
    if registered {
      assert c2[|c0|] == c1[|c0|];
    }
  }

  /** The sync appends one `commands_registered` row per guild it registers, and
      nothing else. */
  lemma {:induction false} SyncAppendsOnlyMarkers(db: Db, roster: seq<RosterGuild>, now: Timestamp)
    ensures var r := Sync(db, roster, now);
      && |r.db.configs| == |db.configs| + |r.registered|
      && forall k :: |db.configs| <= k < |r.db.configs| ==> IsMarker(r.db.configs[k])
    decreases |roster|
  {
    if |roster| > 0 {
      match SyncGuild(db, roster[0], now)
      case Stop =>
      case Continue(db1, registered) =>
        SyncAppendsOnlyMarkers(db1, roster[1..], now);
        var rest := Sync(db1, roster[1..], now);
        MarkersCompose(db.configs, db1.configs, rest.db.configs, registered, FirstGuildRef(db1, roster[0].id), |rest.registered|);
    }
  }

  /** A turn that goes on changes no guild's soft-delete state. */
  lemma SyncGuildKeepsDeleted(db: Db, x: RosterGuild, now: Timestamp, h: GuildId)
    requires !HasDeletedGuild(db, x.id)
    ensures HasDeletedGuild(SyncGuild(db, x, now).db, h) == HasDeletedGuild(db, h)
  {
    var db' := SyncGuild(db, x, now).db;
    if HasDeletedGuild(db, h) {
      var i :| 0 <= i < |db.guilds| && db.guilds[i].guildId == h && db.guilds[i].deletedAt.Some?;
      assert db'.guilds[i].guildId == h && db'.guilds[i].deletedAt.Some?;
    }
    if HasDeletedGuild(db', h) {
      var i :| 0 <= i < |db'.guilds| && db'.guilds[i].guildId == h && db'.guilds[i].deletedAt.Some?;
      assert i < |db.guilds|;
      assert db.guilds[i].guildId == h && db.guilds[i].deletedAt.Some?;
    }
  }

  /** A turn that goes on keeps every row of the other guilds where it was. */
  lemma SyncGuildKeepsOthers(db: Db, x: RosterGuild, now: Timestamp)
    requires !HasDeletedGuild(db, x.id)
    ensures var db' := SyncGuild(db, x, now).db;
      && |db'.guilds| >= |db.guilds|
      && (forall i :: 0 <= i < |db.guilds| ==>
            db'.guilds[i].guildId == db.guilds[i].guildId && db'.guilds[i].id == db.guilds[i].id)
      && (forall i :: 0 <= i < |db.guilds| && db.guilds[i].guildId != x.id ==> db'.guilds[i] == db.guilds[i])
  {
  }

  /** A guild already dealt with stays dealt with through another guild's turn. */
  lemma SyncGuildKeepsReady(db: Db, x: RosterGuild, now: Timestamp, h: GuildId)
    requires !HasDeletedGuild(db, x.id) && Ready(db, h)
    ensures Ready(SyncGuild(db, x, now).db, h)
  {
    var db' := SyncGuild(db, x, now).db;
    SyncGuildKeepsDeleted(db, x, now, h);
    SyncGuildKeepsOthers(db, x, now);
    var i :| 0 <= i < |db.guilds| && db.guilds[i].guildId == h;
    assert db'.guilds[i].guildId == h;
    FirstGuildRefStable(db, db', h);
    var ref := FirstGuildRef(db, h);
    var k :| 0 <= k < |db.configs| && IsConfig(db.configs[k], ref, CommandsRegistered);
    assert db'.configs[k] == db.configs[k];
  }

  /** The turn of a guild already dealt with adds no row and registers nothing. */
  lemma SyncGuildOnReady(db: Db, x: RosterGuild, now: Timestamp)
    requires Ready(db, x.id)
    ensures var s := SyncGuild(db, x, now);
      && s.Continue? && !s.registered
      && |s.db.guilds| == |db.guilds| && s.db.configs == db.configs && s.db.nextId == db.nextId
  {
    var db1 := RenameGuild(db, x.id, x.name, now);
    FirstGuildRefStable(db, db1, x.id);
  }

  lemma {:induction false} SyncKeepsDeleted(db: Db, roster: seq<RosterGuild>, now: Timestamp, h: GuildId)
    ensures HasDeletedGuild(Sync(db, roster, now).db, h) == HasDeletedGuild(db, h)
    decreases |roster|
  {
    if |roster| > 0 && SyncGuild(db, roster[0], now).Continue? {
      SyncGuildKeepsDeleted(db, roster[0], now, h);
      SyncKeepsDeleted(SyncGuild(db, roster[0], now).db, roster[1..], now, h);
    }
  }

  lemma {:induction false} SyncKeepsReady(db: Db, roster: seq<RosterGuild>, now: Timestamp, h: GuildId)
    requires Ready(db, h)
    ensures Ready(Sync(db, roster, now).db, h)
    decreases |roster|
  {
    if |roster| > 0 && SyncGuild(db, roster[0], now).Continue? {
      SyncGuildKeepsReady(db, roster[0], now, h);
      SyncKeepsReady(SyncGuild(db, roster[0], now).db, roster[1..], now, h);
    }
  }

  /** Every guild of the roster before the first soft-deleted one has been dealt with. */
  predicate ReadyUpToDeleted(db: Db, roster: seq<RosterGuild>)
    decreases |roster|
  {
    |roster| == 0 || HasDeletedGuild(db, roster[0].id) || (Ready(db, roster[0].id) && ReadyUpToDeleted(db, roster[1..]))
  }

  /** After the sync, every guild it reached has a row, no soft-delete and its marker. */
  lemma {:induction false} SyncMakesReady(db: Db, roster: seq<RosterGuild>, now: Timestamp)
    ensures ReadyUpToDeleted(Sync(db, roster, now).db, roster)
    decreases |roster|
  {
    if |roster| > 0 {
      var x := roster[0];
      var final := Sync(db, roster, now).db;
      SyncKeepsDeleted(db, roster, now, x.id);
      match SyncGuild(db, x, now)
      case Stop =>
      case Continue(db1, _) =>
        SyncMakesReady(db1, roster[1..], now);
        SyncKeepsReady(db1, roster[1..], now, x.id);
    }
  }

  lemma {:induction false} ReadyUpToDeletedKept(db: Db, x: RosterGuild, now: Timestamp, roster: seq<RosterGuild>)
    requires !HasDeletedGuild(db, x.id) && ReadyUpToDeleted(db, roster)
    ensures ReadyUpToDeleted(SyncGuild(db, x, now).db, roster)
    decreases |roster|
  {
    if |roster| > 0 {
      SyncGuildKeepsDeleted(db, x, now, roster[0].id);
      if !HasDeletedGuild(db, roster[0].id) {
        SyncGuildKeepsReady(db, x, now, roster[0].id);
        ReadyUpToDeletedKept(db, x, now, roster[1..]);
      }
    }
  }

  /** A sync over guilds that are all dealt with adds no row and registers nothing. */
  lemma {:induction false} SyncOnReadyAddsNothing(db: Db, roster: seq<RosterGuild>, now: Timestamp)
    requires ReadyUpToDeleted(db, roster)
    ensures var r := Sync(db, roster, now);
      && r.registered == []
      && |r.db.guilds| == |db.guilds| && r.db.configs == db.configs && r.db.nextId == db.nextId
    decreases |roster|
  {
    if |roster| > 0 && !HasDeletedGuild(db, roster[0].id) {
      SyncGuildOnReady(db, roster[0], now);
      var db1 := SyncGuild(db, roster[0], now).db;
      ReadyUpToDeletedKept(db, roster[0], now, roster[1..]);
      SyncOnReadyAddsNothing(db1, roster[1..], now);
    }
  }

  /** Running the sync a second time over the same roster inserts no guild row and no
      `commands_registered` marker, and registers no commands. */
  lemma SyncTwiceAddsNothing(db: Db, roster: seq<RosterGuild>, now: Timestamp, later: Timestamp)
    ensures var first := Sync(db, roster, now);
      var second := Sync(first.db, roster, later);
      && second.registered == []
      && |second.db.guilds| == |first.db.guilds|
      && second.db.configs == first.db.configs
      && second.db.nextId == first.db.nextId
  {
    SyncMakesReady(db, roster, now);
    SyncOnReadyAddsNothing(Sync(db, roster, now).db, roster, later);
  }

  /** One turn of the sync that goes on, followed by the sync of the rest. */
  lemma SyncUnfold(db: Db, roster: seq<RosterGuild>, now: Timestamp)
    requires |roster| > 0 && SyncGuild(db, roster[0], now).Continue?
    ensures var s := SyncGuild(db, roster[0], now);
      var rest := Sync(s.db, roster[1..], now);
      Sync(db, roster, now) == SyncResult(rest.db, (if s.registered then [roster[0].id] else []) + rest.registered)
  {
  }

  /** The sync ends at the first soft-deleted guild: the rest of the roster is never looked at. */
  lemma {:induction false} SyncStopsAtDeleted(db: Db, roster: seq<RosterGuild>, now: Timestamp, k: nat)
    requires k < |roster| && HasDeletedGuild(db, roster[k].id)
    requires forall i :: 0 <= i < k ==> !HasDeletedGuild(db, roster[i].id)
    ensures Sync(db, roster, now) == Sync(db, roster[..k], now)
    decreases k
  {
    if k == 0 {
      assert Sync(db, roster[..0], now) == SyncResult(db, []);
    } else {
      var x := roster[0];
      match SyncGuild(db, x, now)
      case Stop =>
      case Continue(db1, _) =>
        forall i | 0 <= i < k - 1 ensures !HasDeletedGuild(db1, roster[1..][i].id) {
          SyncGuildKeepsDeleted(db, x, now, roster[i + 1].id);
        }
        SyncGuildKeepsDeleted(db, x, now, roster[k].id);
        SyncStopsAtDeleted(db1, roster[1..], now, k - 1);
        SyncPrefixUnfold(db, roster, now, k);
    }
  }

  /** When a turn goes on and the rest of the roster stops after `k - 1` guilds, the
      whole roster stops after `k`. */
  lemma SyncPrefixUnfold(db: Db, roster: seq<RosterGuild>, now: Timestamp, k: nat)
    requires 0 < k <= |roster| && SyncGuild(db, roster[0], now).Continue?
    requires var db1 := SyncGuild(db, roster[0], now).db;
      Sync(db1, roster[1..], now) == Sync(db1, roster[1..][..k - 1], now)
    ensures Sync(db, roster, now) == Sync(db, roster[..k], now)
  {
    var prefix := roster[..k];
    assert |prefix| > 0 && prefix[0] == roster[0];
    assert prefix[1..] == roster[1..][..k - 1];
    SyncUnfold(db, prefix, now);
    SyncUnfold(db, roster, now);
  }

  /** A soft-deleted guild is never touched: its rows stay as they were, it stays
      soft-deleted, and its commands are not registered. */
  lemma {:induction false} SyncLeavesDeletedAlone(db: Db, roster: seq<RosterGuild>, now: Timestamp, g: GuildId)
    requires HasDeletedGuild(db, g)
    ensures var r := Sync(db, roster, now);
      && |r.db.guilds| >= |db.guilds|
      && (forall i :: 0 <= i < |db.guilds| && db.guilds[i].guildId == g ==> r.db.guilds[i] == db.guilds[i])
      && HasDeletedGuild(r.db, g)
      && g !in r.registered
    decreases |roster|
  {
    SyncKeepsDeleted(db, roster, now, g);
    if |roster| > 0 {
      var x := roster[0];
      match SyncGuild(db, x, now)
      case Stop =>
      case Continue(db1, _) =>
        assert x.id != g;
        SyncGuildKeepsOthers(db, x, now);
        SyncGuildKeepsDeleted(db, x, now, g);
        SyncLeavesDeletedAlone(db1, roster[1..], now, g);
    }
  }

  /** The loop as its comment describes it: a soft-deleted guild is skipped and the
      loop goes on with the next guild. */
  function SyncSkippingDeleted(db: Db, roster: seq<RosterGuild>, now: Timestamp): (r: SyncResult)
    ensures r.db.servers == db.servers
    ensures db.configs <= r.db.configs
    ensures |db.guilds| <= |r.db.guilds|
    ensures |r.registered| <= |roster|
    ensures forall k :: 0 <= k < |r.registered| ==> InRoster(roster, r.registered[k])
    decreases |roster|
  {
    if |roster| == 0 then SyncResult(db, [])
    else
      match SyncGuild(db, roster[0], now)
      case Stop => SyncSkippingDeleted(db, roster[1..], now)
      case Continue(db1, registered) =>
        var rest := SyncSkippingDeleted(db1, roster[1..], now);
        SyncGrowsStep(db, db1, roster, registered, rest);
        SyncResult(rest.db, (if registered then [roster[0].id] else []) + rest.registered)
  }

  /** The corrected loop also appends one marker per registered guild and nothing else. */
  lemma {:induction false} SkippingAppendsOnlyMarkers(db: Db, roster: seq<RosterGuild>, now: Timestamp)
    ensures var r := SyncSkippingDeleted(db, roster, now);
      && |r.db.configs| == |db.configs| + |r.registered|
      && forall k :: |db.configs| <= k < |r.db.configs| ==> IsMarker(r.db.configs[k])
    decreases |roster|
  {
    if |roster| > 0 {
      match SyncGuild(db, roster[0], now)
      case Stop =>
        SkippingAppendsOnlyMarkers(db, roster[1..], now);
      case Continue(db1, registered) =>
        SkippingAppendsOnlyMarkers(db1, roster[1..], now);
        var rest := SyncSkippingDeleted(db1, roster[1..], now);
        MarkersCompose(db.configs, db1.configs, rest.db.configs, registered, FirstGuildRef(db1, roster[0].id), |rest.registered|);
    }
  }

  lemma {:induction false} SkippingKeepsDeleted(db: Db, roster: seq<RosterGuild>, now: Timestamp, h: GuildId)
    ensures HasDeletedGuild(SyncSkippingDeleted(db, roster, now).db, h) == HasDeletedGuild(db, h)
    decreases |roster|
  {
    if |roster| > 0 {
      if SyncGuild(db, roster[0], now).Continue? {
        SyncGuildKeepsDeleted(db, roster[0], now, h);
        SkippingKeepsDeleted(SyncGuild(db, roster[0], now).db, roster[1..], now, h);
      } else {
        SkippingKeepsDeleted(db, roster[1..], now, h);
      }
    }
  }

  lemma {:induction false} SkippingKeepsReady(db: Db, roster: seq<RosterGuild>, now: Timestamp, h: GuildId)
    requires Ready(db, h)
    ensures Ready(SyncSkippingDeleted(db, roster, now).db, h)
    decreases |roster|
  {
    if |roster| > 0 {
      if SyncGuild(db, roster[0], now).Continue? {
        SyncGuildKeepsReady(db, roster[0], now, h);
        SkippingKeepsReady(SyncGuild(db, roster[0], now).db, roster[1..], now, h);
      } else {
        SkippingKeepsReady(db, roster[1..], now, h);
      }
    }
  }

  /** With skipping, every roster guild that is not soft-deleted ends up with a row
      and its `commands_registered` marker, wherever it stands in the roster. */
  lemma {:induction false} SkippingMakesAllReady(db: Db, roster: seq<RosterGuild>, now: Timestamp)
    ensures AllReadyAfter(db, roster, SyncSkippingDeleted(db, roster, now).db)
    decreases |roster|
  {
    if |roster| > 0 {
      if HasDeletedGuild(db, roster[0].id) {
        SkippingMakesAllReady(db, roster[1..], now);
        SkippingStopStep(db, roster, now);
      } else {
        SkippingMakesAllReady(SyncGuild(db, roster[0], now).db, roster[1..], now);
        SkippingContinueStep(db, roster, now);
      }
    }
  }

  /** Every roster guild not soft-deleted in `db` is ready in `final`. */
  predicate AllReadyAfter(db: Db, roster: seq<RosterGuild>, final: Db)
  {
    forall i :: 0 <= i < |roster| && !HasDeletedGuild(db, roster[i].id) ==> Ready(final, roster[i].id)
  }

  /** A soft-deleted first guild is skipped: what holds for the rest holds for the roster. */
  lemma SkippingStopStep(db: Db, roster: seq<RosterGuild>, now: Timestamp)
    requires |roster| > 0 && HasDeletedGuild(db, roster[0].id)
    requires AllReadyAfter(db, roster[1..], SyncSkippingDeleted(db, roster[1..], now).db)
    ensures AllReadyAfter(db, roster, SyncSkippingDeleted(db, roster, now).db)
  {
    var final := SyncSkippingDeleted(db, roster, now).db;
    assert final == SyncSkippingDeleted(db, roster[1..], now).db;
    forall i | 0 <= i < |roster| && !HasDeletedGuild(db, roster[i].id) ensures Ready(final, roster[i].id) {
      assert i > 0;
      assert roster[i] == roster[1..][i - 1];
    }
  }

  /** A first guild that is not soft-deleted is made ready and stays ready through the
      rest, and the rest's guilds are ready as the rest's sync leaves them. */
  lemma SkippingContinueStep(db: Db, roster: seq<RosterGuild>, now: Timestamp)
    requires |roster| > 0 && !HasDeletedGuild(db, roster[0].id)
    requires var db1 := SyncGuild(db, roster[0], now).db;
      AllReadyAfter(db1, roster[1..], SyncSkippingDeleted(db1, roster[1..], now).db)
    ensures AllReadyAfter(db, roster, SyncSkippingDeleted(db, roster, now).db)
  {
    var x := roster[0];
    var db1 := SyncGuild(db, x, now).db;
    var final := SyncSkippingDeleted(db, roster, now).db;
    assert final == SyncSkippingDeleted(db1, roster[1..], now).db;
    SkippingKeepsReady(db1, roster[1..], now, x.id);
    NotDeletedAfterTurn(db, x, now, roster[1..]);
    forall i | 0 <= i < |roster| && !HasDeletedGuild(db, roster[i].id) ensures Ready(final, roster[i].id) {
      if i > 0 {
        assert roster[i] == roster[1..][i - 1];
      }
    }
  }

  /** A guild that is not soft-deleted before a turn is not soft-deleted after it. */
  lemma NotDeletedAfterTurn(db: Db, x: RosterGuild, now: Timestamp, rest: seq<RosterGuild>)
    requires !HasDeletedGuild(db, x.id)
    ensures forall i :: 0 <= i < |rest| && !HasDeletedGuild(db, rest[i].id) ==>
      !HasDeletedGuild(SyncGuild(db, x, now).db, rest[i].id)
  {
    forall i | 0 <= i < |rest| && !HasDeletedGuild(db, rest[i].id)
      ensures !HasDeletedGuild(SyncGuild(db, x, now).db, rest[i].id)
    {
      SyncGuildKeepsDeleted(db, x, now, rest[i].id);
    }
  }

  /** A store whose only guild, Discord id "1", is soft-deleted. */
  function DeletedFirstStore(): Db
  {
    Db([GuildRow(DbGuildId(1), GuildId("1"), "Old", "t0", "t0", Some("t0"))], [], [], 2)
  }

  /** As written, a soft-deleted guild listed first keeps a newly joined guild listed
      after it from ever getting a row or its commands; skipping gives it both. */
  lemma DeletedGuildBlocksLaterGuilds(now: Timestamp)
    ensures var roster := [RosterGuild(GuildId("1"), "Old"), RosterGuild(GuildId("2"), "New")];
      && !HasGuild(Sync(DeletedFirstStore(), roster, now).db, GuildId("2"))
      && Sync(DeletedFirstStore(), roster, now).registered == []
      && Ready(SyncSkippingDeleted(DeletedFirstStore(), roster, now).db, GuildId("2"))
      && SyncSkippingDeleted(DeletedFirstStore(), roster, now).registered == [GuildId("2")]
  {
    var db := DeletedFirstStore();
    var roster := [RosterGuild(GuildId("1"), "Old"), RosterGuild(GuildId("2"), "New")];
    assert db.guilds[0].guildId == GuildId("1") && db.guilds[0].deletedAt.Some?;
    assert HasGuild(db, GuildId("1")) && HasDeletedGuild(db, GuildId("1"));
    assert SyncGuild(db, roster[0], now) == Stop;
    assert !HasGuild(db, GuildId("2"));
    assert !HasDeletedGuild(db, roster[1].id);
    SkippingMakesAllReady(db, roster, now);
  }
}

=== FILE: pattern.dfy ===
/** The address check of the `add` subcommand: `preg_match` of
    `[0-9]{1,3}\.[0-9]{1,3}\.[0-9]{1,3}\.[0-9]{1,3}:[0-9]{1,4}` without anchors,
    so any substring that looks like an IPv4 address and a port passes. The
    pattern's meaning is given by a small backtracking regex semantics; the
    check itself is a hand-rolled scanner proved to agree with it. */
module AddressPattern {
  import opened Wrappers
  import opened Strings

  /** A regex atom: a bounded run of decimal digits, or one literal character. */
  datatype Atom = Digits(lo: nat, hi: nat) | Lit(c: char)

  const IpPort: seq<Atom> := [Digits(1, 3), Lit('.'), Digits(1, 3), Lit('.'), Digits(1, 3), Lit('.'),
                              Digits(1, 3), Lit(':'), Digits(1, 4)]

  /** The whole of `t` matches `p`, trying every repetition count a bounded run allows. */
  predicate Matches(p: seq<Atom>, t: string)
    decreases |p|
  {
    if |p| == 0 then |t| == 0
    else
      match p[0]
      case Lit(c) => |t| > 0 && t[0] == c && Matches(p[1..], t[1..])
      case Digits(lo, hi) => exists k :: lo <= k <= hi && k <= |t| && AllDigits(t[..k]) && Matches(p[1..], t[k..])
  }

  /** An unanchored search: some substring of `s` matches `p`. */
  ghost predicate Search(p: seq<Atom>, s: string)
  {
    exists i, j :: 0 <= i <= j <= |s| && Matches(p, s[i..j])
  }

  /** The number of consecutive digits of `s` from position `p`. */
  function DigitRun(s: string, p: nat): (n: nat)
    requires p <= |s|
    ensures p + n <= |s| && AllDigits(s[p..p + n])
    ensures p + n < |s| ==> !IsDigit(s[p + n])
    decreases |s| - p
  {
    if p < |s| && IsDigit(s[p]) then
      var n := 1 + DigitRun(s, p + 1);
      assert s[p..p + n] == [s[p]] + s[p + 1..p + n];
      n
    else 0
  }

  /** One to three digits from `p` and then `sep`: where the next group starts. */
  function Group(s: string, p: nat, sep: char): (r: Option<nat>)
    requires p <= |s|
    ensures r.Some? ==> p < r.value <= |s|
  {
    var n := DigitRun(s, p);
    if 1 <= n <= 3 && p + n < |s| && s[p + n] == sep then Some(p + n + 1) else None
  }

  /** The scanner's test at one start position: three dotted groups, a group ending in ':',
      and one digit of port (a longer port only extends the same match). */
  predicate MatchAt(s: string, p: nat)
    requires p <= |s|
  {
    var g1 := Group(s, p, '.');
    g1.Some? &&
    var g2 := Group(s, g1.value, '.');
    g2.Some? &&
    var g3 := Group(s, g2.value, '.');
    g3.Some? &&
    var g4 := Group(s, g3.value, ':');
    g4.Some? && g4.value < |s| && IsDigit(s[g4.value])
  }

  function MatchFrom(s: string, p: nat): bool
    requires p <= |s|
    decreases |s| - p
  {
    p < |s| && (MatchAt(s, p) || MatchFrom(s, p + 1))
  }

  /** The address check `add` applies. */
  predicate HasIpPort(s: string)
  {
    MatchFrom(s, 0)
  }

  lemma {:induction false} DigitRunExact(s: string, p: nat, k: nat)
    requires p + k < |s| && AllDigits(s[p..p + k]) && !IsDigit(s[p + k])
    ensures DigitRun(s, p) == k
    decreases k
  {
    if k > 0 {
      assert IsDigit(s[p..p + k][0]);
      assert s[p + 1..p + k] == s[p..p + k][1..];
      DigitRunExact(s, p + 1, k - 1);
    }
  }

  /** A digit group followed by a non-digit separator matches exactly where `Group` says. */
  lemma GroupMatches(s: string, p: nat, j: nat, sep: char, rest: seq<Atom>)
    requires p <= j <= |s| && !IsDigit(sep)
    ensures Matches([Digits(1, 3), Lit(sep)] + rest, s[p..j]) <==>
      (Group(s, p, sep).Some? && Group(s, p, sep).value <= j && Matches(rest, s[Group(s, p, sep).value..j]))
  {
    if Matches([Digits(1, 3), Lit(sep)] + rest, s[p..j]) {
      GroupMatchesSound(s, p, j, sep, rest);
    }
    if Group(s, p, sep).Some? && Group(s, p, sep).value <= j && Matches(rest, s[Group(s, p, sep).value..j]) {
      GroupMatchesComplete(s, p, j, sep, rest);
    }
  }

  lemma GroupMatchesSound(s: string, p: nat, j: nat, sep: char, rest: seq<Atom>)
    requires p <= j <= |s| && !IsDigit(sep)
    requires Matches([Digits(1, 3), Lit(sep)] + rest, s[p..j])
    ensures Group(s, p, sep).Some? && Group(s, p, sep).value <= j && Matches(rest, s[Group(s, p, sep).value..j])
  {
    var pat := [Digits(1, 3), Lit(sep)] + rest;
    var t := s[p..j];
    assert pat[0] == Digits(1, 3) && pat[1..] == [Lit(sep)] + rest && ([Lit(sep)] + rest)[1..] == rest;
    var k :| 1 <= k <= 3 && k <= |t| && AllDigits(t[..k]) && Matches(pat[1..], t[k..]);
    assert t[..k] == s[p..p + k];
    assert t[k..][0] == s[p + k];
    DigitRunExact(s, p, k);
    assert t[k..][1..] == s[p + k + 1..j];
  }

  lemma GroupMatchesComplete(s: string, p: nat, j: nat, sep: char, rest: seq<Atom>)
    requires p <= j <= |s|
    requires Group(s, p, sep).Some? && Group(s, p, sep).value <= j && Matches(rest, s[Group(s, p, sep).value..j])
    ensures Matches([Digits(1, 3), Lit(sep)] + rest, s[p..j])
  {
    var pat := [Digits(1, 3), Lit(sep)] + rest;
    var t := s[p..j];
    assert pat[0] == Digits(1, 3) && pat[1..] == [Lit(sep)] + rest && ([Lit(sep)] + rest)[1..] == rest;
    var k := DigitRun(s, p);
    assert t[..k] == s[p..p + k];
    assert t[k..][0] == sep;
    assert t[k..][1..] == s[p + k + 1..j];
    assert Matches(pat[1..], t[k..]);
  }

  /** The final port group matches a run of one to four digits. */
  lemma PortMatches(s: string, q: nat, j: nat)
    requires q <= j <= |s|
    ensures Matches([Digits(1, 4)], s[q..j]) <==> 1 <= j - q <= 4 && AllDigits(s[q..j])
  {
    var t := s[q..j];
    var pat := [Digits(1, 4)];
    assert pat[1..] == [];
    if Matches(pat, t) {
      var k :| 1 <= k <= 4 && k <= |t| && AllDigits(t[..k]) && Matches(pat[1..], t[k..]);
      assert t[..k] == t;
    }
    if 1 <= j - q <= 4 && AllDigits(t) {
      assert t[..|t|] == t && t[|t|..] == [];
      assert Matches(pat[1..], t[|t|..]);
    }
  }

  lemma IpPortShape()
    ensures IpPort == [Digits(1, 3), Lit('.')] + IpPort[2..]
    ensures IpPort[2..] == [Digits(1, 3), Lit('.')] + IpPort[4..]
    ensures IpPort[4..] == [Digits(1, 3), Lit('.')] + IpPort[6..]
    ensures IpPort[6..] == [Digits(1, 3), Lit(':')] + [Digits(1, 4)]
  {
  }

  /** Where the scanner accepts, a substring starting there matches the pattern. */
  lemma MatchAtSound(s: string, i: nat)
    requires i <= |s| && MatchAt(s, i)
    ensures exists j :: i <= j <= |s| && Matches(IpPort, s[i..j])
  {
    IpPortShape();
    var q1 := Group(s, i, '.').value;
    var q2 := Group(s, q1, '.').value;
    var q3 := Group(s, q2, '.').value;
    var q4 := Group(s, q3, ':').value;
    var j := q4 + 1;
    assert s[q4..j] == [s[q4]];
    PortMatches(s, q4, j);
    GroupMatches(s, q3, j, ':', [Digits(1, 4)]);
    GroupMatches(s, q2, j, '.', IpPort[6..]);
    GroupMatches(s, q1, j, '.', IpPort[4..]);
    GroupMatches(s, i, j, '.', IpPort[2..]);
  }

  /** Where a substring matches the pattern, the scanner accepts at its start. The
      pattern is a parameter equal to `IpPort` so that the proof can name its tails
      without unfolding the constant at every step. */
  lemma MatchAtComplete(s: string, i: nat, j: nat, pat: seq<Atom>)
    requires pat == IpPort
    requires i <= j <= |s| && Matches(pat, s[i..j])
    ensures MatchAt(s, i)
  {
    IpPortShape();
    var p2, p4, p6 := pat[2..], pat[4..], pat[6..];
    assert pat == [Digits(1, 3), Lit('.')] + p2;
    assert p2 == [Digits(1, 3), Lit('.')] + p4;
    assert p4 == [Digits(1, 3), Lit('.')] + p6;
    assert p6 == [Digits(1, 3), Lit(':')] + [Digits(1, 4)];
    GroupMatches(s, i, j, '.', p2);
    var q1 := Group(s, i, '.').value;
    GroupMatches(s, q1, j, '.', p4);
    var q2 := Group(s, q1, '.').value;
    GroupMatches(s, q2, j, '.', p6);
    var q3 := Group(s, q2, '.').value;
    GroupMatches(s, q3, j, ':', [Digits(1, 4)]);
    var q4 := Group(s, q3, ':').value;
    PortMatches(s, q4, j);
    assert s[q4..j][0] == s[q4];
  }

  lemma {:induction false} MatchFromIff(s: string, p: nat)
    requires p <= |s|
    ensures MatchFrom(s, p) <==> exists q :: p <= q < |s| && MatchAt(s, q)
    decreases |s| - p
  {
    if p < |s| {
      MatchFromIff(s, p + 1);
    }
  }

  /** The hand-rolled scanner accepts exactly the strings the unanchored regex matches. */
  lemma HasIpPortIsSearch(s: string)
    ensures HasIpPort(s) <==> Search(IpPort, s)
  {
    MatchFromIff(s, 0);
    if HasIpPort(s) {
      var q :| 0 <= q < |s| && MatchAt(s, q);
      MatchAtSound(s, q);
    }
    if Search(IpPort, s) {
      var i, j :| 0 <= i <= j <= |s| && Matches(IpPort, s[i..j]);
      MatchAtComplete(s, i, j, IpPort);
    }
  }

  /** The check is unanchored: an accepted address stays accepted whatever text
      surrounds it, digits included. */
  lemma SearchInContext(p: seq<Atom>, a: string, b: string, c: string, s: string)
    requires s == a + b + c && Search(p, b)
    ensures Search(p, s)
  {
    var i, j :| 0 <= i <= j <= |b| && Matches(p, b[i..j]);
    assert s[|a| + i..|a| + j] == b[i..j];
  }

  /** So `1111.1.1.1:1000` or `at 1.1.1.1:1000!` passes because `1.1.1.1:1000` does. */
  lemma AcceptedInAnyContext(a: string, b: string, c: string, s: string)
    requires s == a + b + c && HasIpPort(b)
    ensures HasIpPort(s)
  {
    HasIpPortIsSearch(b);
    SearchInContext(IpPort, a, b, c, s);
    HasIpPortIsSearch(s);
  }

  /** Four one-digit groups and a port are accepted. */
  lemma AcceptsOneDigitGroups(a: char, b: char, c: char, d: char, port: string, s: string)
    requires IsDigit(a) && IsDigit(b) && IsDigit(c) && IsDigit(d)
    requires |port| >= 1 && IsDigit(port[0])
    requires s == [a, '.', b, '.', c, '.', d, ':'] + port
    ensures HasIpPort(s)
  {
    assert s[0] == a && s[1] == '.' && s[2] == b && s[3] == '.';
    assert s[4] == c && s[5] == '.' && s[6] == d && s[7] == ':';
    assert s[0..1] == [a];
    assert s[2..3] == [b];
    assert s[4..5] == [c];
    assert s[6..7] == [d];
    DigitRunExact(s, 0, 1);
    DigitRunExact(s, 2, 1);
    DigitRunExact(s, 4, 1);
    DigitRunExact(s, 6, 1);
    assert Group(s, 0, '.') == Some(2);
    assert Group(s, 2, '.') == Some(4);
    assert Group(s, 4, '.') == Some(6);
    assert Group(s, 6, ':') == Some(8);
    assert s[8] == port[0];
    assert MatchAt(s, 0);
  }

  /** The example from the error reply, `1.1.1.1:1000`, is accepted. The text comes in
      as a parameter fixed by the precondition so that the verifier works on an
      opaque string and never unfolds the literal character by character. */
  lemma AcceptsPlainAddress(s: string)
    requires s == "1.1.1.1:1000"
    ensures HasIpPort(s)
  {
    AcceptsOneDigitGroups('1', '1', '1', '1', "1000", s);
  }

  lemma RejectsHostName()
    ensures !HasIpPort("localhost:80")
  {
    var s := "localhost:80";
    forall q | 0 <= q < |s| ensures !MatchAt(s, q) {
      if q < 10 {
        assert !IsDigit(s[q]);
        assert DigitRun(s, q) == 0;
      } else {
        assert DigitRun(s, q) == |s| - q;
      }
    }
    MatchFromIff(s, 0);
  }
}

=== FILE: reconcile.dfy ===
/** One reconciliation pass for one guild (the "update guild servers" handler):
    decide whether the guild is served, work out the probe targets, assemble
    the report from the probe results, and choose between posting a new status
    message and editing the known one. Also the handler that records the id of
    a freshly posted status message. The Discord calls become `Action` values
    and the TCP/UDP probes become a sequence of results, one per target. */
module Reconcile {
  import opened Wrappers
  import opened Strings
  import opened Store
  import opened Assets
  import opened Report

  /** The environment values the handlers read. */
  datatype Config = Config(botId: string, skipGuildIds: string)

  /** What `fsockopen` is called with: a host (with a scheme for UDP) and the port text,
      which is undefined (null) when the address has no ':'. */
  datatype Target = Target(host: string, port: Option<string>)

  /** The Discord call a pass ends in. The channel is the `message_channel` lookup,
      which is null when the guild has no such configuration. */
  datatype Action =
    | SendNew(channel: Option<string>, text: string)
    | Edit(channel: Option<string>, messageId: string, text: string)

  const UdpScheme: string := "udp://"

  /** The space-separated list of guild ids that are never served. */
  function SkipList(cfg: Config): seq<string>
  {
    Split(cfg.skipGuildIds, ' ')
  }

  predicate Skipped(cfg: Config, db: Db, g: GuildId)
  {
    g.snowflake in SkipList(cfg) || HasDeletedGuild(db, g)
  }

  /** The guild's active servers, looked up through its active guild row. */
  function LoadServers(db: Db, g: GuildId): seq<ServerRow>
  {
    ActiveServers(db, ActiveGuildRef(db, g))
  }

  /** The probe target of a server: the first ':'-field as host, prefixed with the UDP
      scheme for UDP servers, and the second ':'-field as port. */
  function ProbeTarget(s: ServerRow): (t: Target)
    ensures var fields := Split(s.address, ':');
      && t.host == (if s.protocol == "udp" then UdpScheme + fields[0] else fields[0])
      && t.port == (if |fields| >= 2 then Some(fields[1]) else None)
  {
    var fields := Split(s.address, ':');
    var host := if s.protocol == "udp" then UdpScheme + fields[0] else fields[0];
    Target(host, if |fields| >= 2 then Some(fields[1]) else None)
  }

  /** For an address `host:port` the probe goes to that host (with the scheme for UDP)
      and to the port text up to any further ':'. */
  lemma ProbeTargetOfHostPort(s: ServerRow, host: string, port: string)
    requires s.address == host + ":" + port && ':' !in host
    ensures ProbeTarget(s).host == (if s.protocol == "udp" then UdpScheme + host else host)
    ensures ProbeTarget(s).port == Some(Split(port, ':')[0])
    ensures ':' !in port ==> ProbeTarget(s).port == Some(port)
  {
    SplitConcat(host, port, ':');
    if ':' !in port {
      SplitNoDelimiter(port, ':');
    }
  }

  function TargetsOf(servers: seq<ServerRow>): (ts: seq<Target>)
    ensures |ts| == |servers|
    ensures forall i :: 0 <= i < |ts| ==> ts[i] == ProbeTarget(servers[i])
  {
    seq(|servers|, i requires 0 <= i < |servers| => ProbeTarget(servers[i]))
  }

  /** The probes a pass makes: none for a skipped guild, else one per active server in load order. */
  function ProbeTargets(cfg: Config, db: Db, g: GuildId): (ts: seq<Target>)
    ensures Skipped(cfg, db, g) ==> ts == []
    ensures !Skipped(cfg, db, g) ==> ts == TargetsOf(LoadServers(db, g))
  {
    if Skipped(cfg, db, g) then [] else TargetsOf(LoadServers(db, g))
  }

  /** One `Server` per loaded row, built offline and then given its probe result. */
  function Entries(servers: seq<ServerRow>, probes: seq<bool>): (es: seq<Server>)
    requires |probes| == |servers|
    ensures |es| == |servers|
    ensures forall i :: 0 <= i < |es| ==>
      es[i] == SetOnline(NewServer(servers[i].name, servers[i].address), probes[i])
  {
    seq(|servers|, i requires 0 <= i < |servers| =>
      SetOnline(NewServer(servers[i].name, servers[i].address), probes[i]))
  }

  /** The pass. `probes[i]` is the result of probing `ProbeTargets(cfg, db, g)[i]`. */
  function Pass(cfg: Config, db: Db, g: GuildId, probes: seq<bool>, ts: string): (a: Option<Action>)
    requires |probes| == |ProbeTargets(cfg, db, g)|
    ensures a.None? <==> Skipped(cfg, db, g) || |LoadServers(db, g)| == 0
    ensures a.Some? ==> a.value.text == Render(ts, Entries(LoadServers(db, g), probes))
    ensures a.Some? ==> a.value.channel == ConfigValue(db, ActiveGuildRef(db, g), MessageChannel)
    ensures a.Some? ==> (a.value.SendNew? <==> !HasConfig(db, ActiveGuildRef(db, g), MessageId))
    ensures a.Some? && a.value.Edit? ==> ConfigValue(db, ActiveGuildRef(db, g), MessageId) == Some(a.value.messageId)
  {
    if Skipped(cfg, db, g) then None
    else
      var dbGuild := ActiveGuildRef(db, g);
      var servers := ActiveServers(db, dbGuild);
      if |servers| == 0 then None
      else
        var text := Render(ts, Entries(servers, probes));
        var channel := ConfigValue(db, dbGuild, MessageChannel);
        if !HasConfig(db, dbGuild, MessageId) then Some(SendNew(channel, text))
        else Some(Edit(channel, ConfigValue(db, dbGuild, MessageId).value, text))
  }

  /** Each entry of the report carries exactly its server's probe result, in load order,
      and a UDP server was probed through the UDP scheme. */
  lemma PassEntriesFollowProbes(cfg: Config, db: Db, g: GuildId, probes: seq<bool>, ts: string, i: nat)
    requires |probes| == |ProbeTargets(cfg, db, g)|
    requires !Skipped(cfg, db, g) && i < |LoadServers(db, g)|
    ensures Entries(LoadServers(db, g), probes)[i].online == probes[i]
    ensures Entries(LoadServers(db, g), probes)[i].name == LoadServers(db, g)[i].name
    ensures LoadServers(db, g)[i].protocol == "udp" ==> UdpScheme <= ProbeTargets(cfg, db, g)[i].host
  {
  }

  /** The Discord message the bot just posted, as the created-message handler sees it. */
  datatype Message = Message(id: string, authorId: string, guildId: GuildId, guildName: string)

  /** The created-message handler: ignore other authors; make sure the guild has a row;
      record the message id unless one is already recorded. */
  function OnMessageCreated(cfg: Config, db: Db, m: Message, now: Timestamp): (db': Db)
    ensures m.authorId != cfg.botId ==> db' == db
    ensures m.authorId == cfg.botId ==> HasGuild(db', m.guildId)
    ensures m.authorId == cfg.botId ==> HasConfig(db', FirstGuildRef(db', m.guildId), MessageId)
    ensures db'.servers == db.servers
    ensures HasGuild(db, m.guildId) ==> db'.guilds == db.guilds && db'.nextId == db.nextId
    ensures HasGuild(db, m.guildId) && HasConfig(db, FirstGuildRef(db, m.guildId), MessageId) ==> db' == db
    ensures m.authorId == cfg.botId && !HasGuild(db, m.guildId) ==>
      db'.guilds == db.guilds + [GuildRow(DbGuildId(db.nextId), m.guildId, m.guildName, now, now, None)]
      && db'.nextId == db.nextId + 1
    ensures m.authorId == cfg.botId && HasConfig(db, FirstGuildRef(db', m.guildId), MessageId) ==>
      db'.configs == db.configs
    ensures m.authorId == cfg.botId && !HasConfig(db, FirstGuildRef(db', m.guildId), MessageId) ==>
      db'.configs == db.configs + [ConfigRow(FirstGuildRef(db', m.guildId), MessageId, "string", m.id)]
  {
    if m.authorId != cfg.botId then db
    else
      var db1 := if !HasGuild(db, m.guildId) then InsertGuild(db, m.guildId, m.guildName, now) else db;
      assert HasGuild(db1, m.guildId) by {
        if !HasGuild(db, m.guildId) { assert db1.guilds[|db.guilds|].guildId == m.guildId; }
      }
      var dbGuild := FirstGuildRef(db1, m.guildId);
      if !HasConfig(db1, dbGuild, MessageId) then InsertConfig(db1, dbGuild, MessageId, m.id) else db1
  }

  /** Handling the same created message twice leaves the store as handling it once. */
  lemma MessageCreatedIdempotent(cfg: Config, db: Db, m: Message, now: Timestamp)
    ensures OnMessageCreated(cfg, OnMessageCreated(cfg, db, m, now), m, now) == OnMessageCreated(cfg, db, m, now)
  {
  }

  /** Only the first recorded message id counts: a later bot message for the same guild
      leaves the recorded id as it was. */
  lemma FirstMessageIdWins(cfg: Config, db: Db, m1: Message, m2: Message, now: Timestamp)
    requires m1.authorId == cfg.botId && m2.authorId == cfg.botId && m1.guildId == m2.guildId
    requires !HasConfig(db, if HasGuild(db, m1.guildId) then FirstGuildRef(db, m1.guildId) else Some(DbGuildId(db.nextId)), MessageId)
    ensures var db2 := OnMessageCreated(cfg, OnMessageCreated(cfg, db, m1, now), m2, now);
      ConfigValue(db2, FirstGuildRef(db2, m1.guildId), MessageId) == Some(m1.id)
  {
    var g := m1.guildId;
    var db1 := OnMessageCreated(cfg, db, m1, now);
    var ref := FirstGuildRef(db1, g);
    if !HasGuild(db, g) {
      FirstGuildRefAfterInsert(db, g, m1.guildName, now);
    }
    assert ref == if HasGuild(db, g) then FirstGuildRef(db, g) else Some(DbGuildId(db.nextId));
    assert db1.configs == db.configs + [ConfigRow(ref, MessageId, "string", m1.id)];
    var db2 := OnMessageCreated(cfg, db1, m2, now);
    assert db2 == db1;
    var p := (row: ConfigRow) => IsConfig(row, ref, MessageId);
    assert forall j :: 0 <= j < |db.configs| ==> !p(db1.configs[j]);
    assert p(db1.configs[|db.configs|]);
    assert Seqs.FirstIndex(db1.configs, p) == Some(|db.configs|);
  }

  /** Recording a message id leaves the channel lookup alone and makes the id the one found. */
  lemma RecordMessageIdLookups(db: Db, ref: GuildRef, id: string)
    requires !HasConfig(db, ref, MessageId)
    ensures ConfigValue(InsertConfig(db, ref, MessageId, id), ref, MessageChannel) == ConfigValue(db, ref, MessageChannel)
    ensures ConfigValue(InsertConfig(db, ref, MessageId, id), ref, MessageId) == Some(id)
  {
    var db' := InsertConfig(db, ref, MessageId, id);
    var pc := (row: ConfigRow) => IsConfig(row, ref, MessageChannel);
    if HasConfig(db, ref, MessageChannel) {
      ConfigValueAppend(db, [ConfigRow(ref, MessageId, "string", id)], ref, MessageChannel);
    } else {
      assert !pc(db'.configs[|db.configs|]);
      assert !HasConfig(db', ref, MessageChannel);
    }
    var pm := (row: ConfigRow) => IsConfig(row, ref, MessageId);
    assert forall j :: 0 <= j < |db.configs| ==> !pm(db'.configs[j]);
    assert pm(db'.configs[|db.configs|]);
    assert Seqs.FirstIndex(db'.configs, pm) == Some(|db.configs|);
  }

  /** The status-message protocol: once the posted message is recorded, the next pass
      over the same servers edits that message with the text it would have posted. */
  lemma SendThenEdit(cfg: Config, db: Db, g: GuildId, probes: seq<bool>, ts: string, m: Message, now: Timestamp)
    requires |probes| == |ProbeTargets(cfg, db, g)|
    requires ActiveGuildRef(db, g).Some?
    requires Pass(cfg, db, g, probes, ts).Some? && Pass(cfg, db, g, probes, ts).value.SendNew?
    requires m.authorId == cfg.botId && m.guildId == g
    ensures var db' := OnMessageCreated(cfg, db, m, now);
      && |probes| == |ProbeTargets(cfg, db', g)|
      && Pass(cfg, db', g, probes, ts) == Some(Edit(Pass(cfg, db, g, probes, ts).value.channel, m.id,
                                                     Pass(cfg, db, g, probes, ts).value.text))
  {
    var a := Pass(cfg, db, g, probes, ts).value;
    assert HasGuild(db, g);
    ActiveIsFirst(db, g);
    var ref := ActiveGuildRef(db, g);
    var db' := InsertConfig(db, ref, MessageId, m.id);
    assert OnMessageCreated(cfg, db, m, now) == db';
    assert db'.guilds == db.guilds && db'.servers == db.servers;
    assert ActiveGuildRef(db', g) == ref && Skipped(cfg, db', g) == Skipped(cfg, db, g);
    assert LoadServers(db', g) == LoadServers(db, g);
    RecordMessageIdLookups(db, ref, m.id);
    var a' := Pass(cfg, db', g, probes, ts).value;
    assert a'.Edit? && a'.messageId == m.id;
    assert a'.text == a.text && a'.channel == a.channel;
  }
}

=== FILE: report.dfy ===
/** The status board text: a fenced block with a timestamp header and one
    two-line entry per monitored endpoint, in the order the store returned them. */
module Report {
  import opened Wrappers
  import opened Strings
  import opened Assets

  const Fence: string := "```"
  /** Calendar glyph and a space, printed before the timestamp. */
  const CalendarGlyph: string := "\U{1F4C5} "

  function Header(ts: string): string
  {
    Fence + CalendarGlyph + ts + "\n\n"
  }

  /** Every entry's status line followed by a blank line, in order. */
  function Body(entries: seq<Server>): string
  {
    if |entries| == 0 then "" else ToString(entries[0]) + "\n\n" + Body(entries[1..])
  }

  /** The text as built before the final `rtrim`. */
  function Assemble(ts: string, entries: seq<Server>): string
  {
    Header(ts) + Body(entries) + Fence
  }

  /** The rendered report. The trailing newline trim runs after the closing fence
      has been appended, so it never removes anything. */
  function Render(ts: string, entries: seq<Server>): (r: string)
    ensures r == Header(ts) + Body(entries) + Fence
    ensures Header(ts) <= r
    ensures |r| >= 3 && r[|r| - 3..] == Fence
  {
    var text := Assemble(ts, entries);
    assert text[|text| - 1] == '`';
    RTrim(text, {'\n'})
  }

  /** The lines of a rendered report, one status line or address line or blank per element. */
  function EntryLines(entries: seq<Server>): seq<string>
  {
    if |entries| == 0 then []
    else [StatusGlyph(entries[0].online) + entries[0].name, DeviceGlyph + entries[0].address, ""]
         + EntryLines(entries[1..])
  }

  function ReportLines(ts: string, entries: seq<Server>): seq<string>
  {
    [Fence + CalendarGlyph + ts, ""] + EntryLines(entries) + [Fence]
  }

  predicate NoNewlines(ts: string, entries: seq<Server>)
  {
    && '\n' !in ts
    && forall i :: 0 <= i < |entries| ==> '\n' !in entries[i].name && '\n' !in entries[i].address
  }

  lemma JoinCons(x: string, rest: seq<string>, d: char)
    requires |rest| >= 1
    ensures Join([x] + rest, d) == x + [d] + Join(rest, d)
  {
    assert ([x] + rest)[1..] == rest;
  }

  lemma ThreeLines(a: string, b: string, x: string)
    ensures a + "\n" + (b + "\n" + ("" + "\n" + x)) == a + "\n" + b + "\n\n" + x
  {
    assert "" + "\n" + x == "\n" + x;
    assert "\n\n" + x == "\n" + ("\n" + x);
  }

  /** One entry's three lines in front of the rest. */
  lemma EntryJoin(a: string, b: string, tail: seq<string>)
    requires |tail| >= 1
    ensures Join([a, b, ""] + tail, '\n') == a + "\n" + b + "\n\n" + Join(tail, '\n')
  {
    var x := Join(tail, '\n');
    assert [a, b, ""] + tail == [a] + ([b] + ([""] + tail));
    JoinCons("", tail, '\n');
    JoinCons(b, [""] + tail, '\n');
    JoinCons(a, [b] + ([""] + tail), '\n');
    ThreeLines(a, b, x);
  }

  lemma ToStringLines(e: Server)
    ensures ToString(e) == (StatusGlyph(e.online) + e.name) + "\n" + (DeviceGlyph + e.address)
  {
  }

  lemma BodyCons(entries: seq<Server>)
    requires |entries| > 0
    ensures Body(entries) + Fence == ToString(entries[0]) + "\n\n" + (Body(entries[1..]) + Fence)
  {
  }

  lemma {:induction false} BodyIsJoinedLines(entries: seq<Server>)
    ensures Body(entries) + Fence == Join(EntryLines(entries) + [Fence], '\n')
    decreases |entries|
  {
    if |entries| == 0 {
      assert EntryLines(entries) + [Fence] == [Fence];
    } else {
      var e := entries[0];
      var a := StatusGlyph(e.online) + e.name;
      var b := DeviceGlyph + e.address;
      var tail := EntryLines(entries[1..]) + [Fence];
      BodyIsJoinedLines(entries[1..]);
      BodyCons(entries);
      ToStringLines(e);
      assert EntryLines(entries) + [Fence] == [a, b, ""] + tail;
      EntryJoin(a, b, tail);
    }
  }

  lemma TwoLines(a: string, x: string)
    ensures a + "\n" + ("" + "\n" + x) == a + "\n\n" + x
  {
    assert "" + "\n" + x == "\n" + x;
    assert "\n\n" + x == "\n" + ("\n" + x);
  }

  /** The rendered report is its lines joined by newlines. */
  lemma RenderIsJoinedLines(ts: string, entries: seq<Server>)
    ensures Render(ts, entries) == Join(ReportLines(ts, entries), '\n')
  {
    var tail := EntryLines(entries) + [Fence];
    var first := Fence + CalendarGlyph + ts;
    var x := Join(tail, '\n');
    BodyIsJoinedLines(entries);
    assert ReportLines(ts, entries) == [first] + ([""] + tail);
    JoinCons("", tail, '\n');
    JoinCons(first, [""] + tail, '\n');
    assert Join(ReportLines(ts, entries), '\n') == first + "\n" + ("" + "\n" + x);
    TwoLines(first, x);
    assert Render(ts, entries) == first + "\n\n" + (Body(entries) + Fence);
  }

  lemma {:induction false} EntryLinesNoNewline(entries: seq<Server>)
    requires NoNewlines("", entries)
    ensures forall i :: 0 <= i < |EntryLines(entries)| ==> '\n' !in EntryLines(entries)[i]
    decreases |entries|
  {
    if |entries| > 0 {
      var e := entries[0];
      assert '\n' !in StatusGlyph(e.online) + e.name by {
        var a := StatusGlyph(e.online) + e.name;
        forall k | 0 <= k < |a| ensures a[k] != '\n' { if k >= 2 { assert a[k] == e.name[k - 2]; } }
      }
      assert '\n' !in DeviceGlyph + e.address by {
        var b := DeviceGlyph + e.address;
        forall k | 0 <= k < |b| ensures b[k] != '\n' { if k >= 3 { assert b[k] == e.address[k - 3]; } }
      }
      assert NoNewlines("", entries[1..]) by {
        forall i | 0 <= i < |entries[1..]|
          ensures '\n' !in entries[1..][i].name && '\n' !in entries[1..][i].address
        {
          assert entries[1..][i] == entries[i + 1];
        }
      }
      EntryLinesNoNewline(entries[1..]);
    }
  }

  /** Reads one entry back from its status line and its address line. */
  function ParseEntry(status: string, device: string): Option<Server>
  {
    var online := OnlineGlyph <= status;
    if (online || OfflineGlyph <= status) && DeviceGlyph <= device then
      Some(Server(status[2..], device[3..], online))
    else None
  }

  function ParseEntries(lines: seq<string>): Option<seq<Server>>
    decreases |lines|
  {
    if lines == [Fence] then Some([])
    else if |lines| < 4 || lines[2] != "" then None
    else
      match ParseEntry(lines[0], lines[1])
      case None => None
      case Some(e) =>
        match ParseEntries(lines[3..])
        case None => None
        case Some(rest) => Some([e] + rest)
  }

  /** Reads a report back into its timestamp and its entries. */
  function ParseReport(text: string): Option<(string, seq<Server>)>
  {
    var lines := Split(text, '\n');
    var head := Fence + CalendarGlyph;
    if |lines| < 3 || !(head <= lines[0]) || lines[1] != "" then None
    else
      match ParseEntries(lines[2..])
      case None => None
      case Some(entries) => Some((lines[0][|head|..], entries))
  }

  lemma {:induction false} ParseEntryLines(entries: seq<Server>)
    ensures ParseEntries(EntryLines(entries) + [Fence]) == Some(entries)
    decreases |entries|
  {
    if |entries| == 0 {
      assert EntryLines(entries) + [Fence] == [Fence];
    } else {
      var e := entries[0];
      var lines := EntryLines(entries) + [Fence];
      assert lines[3..] == EntryLines(entries[1..]) + [Fence];
      assert |lines| >= 4 && lines != [Fence];
      assert lines[0] == StatusGlyph(e.online) + e.name && lines[1] == DeviceGlyph + e.address;
      assert OnlineGlyph[0] != OfflineGlyph[0];
      assert lines[0][..2] == StatusGlyph(e.online);
      assert lines[0][2..] == e.name && lines[1][3..] == e.address;
      assert ParseEntry(lines[0], lines[1]) == Some(e);
      ParseEntryLines(entries[1..]);
      assert [e] + entries[1..] == entries;
    }
  }

  /** A report whose timestamp, names and addresses are single-line reads back as exactly
      the timestamp and the entries it was rendered from, in the same order. */
  lemma ParseRender(ts: string, entries: seq<Server>)
    requires NoNewlines(ts, entries)
    ensures ParseReport(Render(ts, entries)) == Some((ts, entries))
  {
    var lines := ReportLines(ts, entries);
    RenderIsJoinedLines(ts, entries);
    assert NoNewlines("", entries);
    EntryLinesNoNewline(entries);
    var first := Fence + CalendarGlyph + ts;
    assert '\n' !in first by {
      forall k | 0 <= k < |first| ensures first[k] != '\n' { if k >= 5 { assert first[k] == ts[k - 5]; } }
    }
    forall i | 0 <= i < |lines| ensures '\n' !in lines[i] {
      if 2 <= i < |lines| - 1 { assert lines[i] == EntryLines(entries)[i - 2]; }
    }
    SplitJoin(lines, '\n');
    assert lines[2..] == EntryLines(entries) + [Fence];
    ParseEntryLines(entries);
    assert first[|Fence + CalendarGlyph|..] == ts;
  }
}

=== FILE: scheduler.dfy ===
/** The heartbeat scheduler: elapsed seconds accumulate across heartbeat
    acknowledgements, and the tick that reaches the ping interval triggers one
    reconciliation pass per joined guild and resets the accumulator. */
module Scheduler {
  import opened Store

  /** The new accumulator, the guilds whose pass the tick triggers, and whether it fired. */
  datatype TickResult = TickResult(acc: nat, fired: seq<GuildId>, triggered: bool)

  /** One heartbeat acknowledgement carrying `delta` elapsed seconds. */
  function OnHeartbeat(acc: nat, delta: nat, interval: nat, guilds: seq<GuildId>): (t: TickResult)
    ensures t.triggered <==> acc + delta >= interval
    ensures t.triggered ==> t.acc == 0 && t.fired == guilds
    ensures !t.triggered ==> t.acc == acc + delta && t.fired == []
    ensures t.acc == 0 || t.acc < interval
  {
    if acc + delta >= interval then TickResult(0, guilds, true)
    else TickResult(acc + delta, [], false)
  }

  function Sum(deltas: seq<nat>): nat
  {
    if |deltas| == 0 then 0 else deltas[0] + Sum(deltas[1..])
  }

  function Count(flags: seq<bool>): nat
  {
    if |flags| == 0 then 0 else (if flags[0] then 1 else 0) + Count(flags[1..])
  }

  /** The accumulator after a run of ticks, and which of the ticks fired. */
  datatype RunResult = RunResult(acc: nat, triggered: seq<bool>)

  /** Ticks in delivery order. Time is never banked: each firing consumes at least an
      interval's worth of accumulated seconds and drops the overshoot, and while nothing
      fires the accumulator is exactly the running sum. */
  function Run(acc: nat, deltas: seq<nat>, interval: nat, guilds: seq<GuildId>): (r: RunResult)
    ensures |r.triggered| == |deltas|
    ensures r.acc + Count(r.triggered) * interval <= acc + Sum(deltas)
    ensures Count(r.triggered) == 0 ==> r.acc == acc + Sum(deltas)
    ensures r.acc == 0 || r.acc < interval || |deltas| == 0
    decreases |deltas|
  {
    if |deltas| == 0 then RunResult(acc, [])
    else
      var t := OnHeartbeat(acc, deltas[0], interval, guilds);
      var rest := Run(t.acc, deltas[1..], interval, guilds);
      var flags := [t.triggered] + rest.triggered;
      assert flags[1..] == rest.triggered;
      var c := Count(rest.triggered);
      assert Count(flags) * interval == (if t.triggered then interval else 0) + c * interval by {
        assert Count(flags) == (if t.triggered then 1 else 0) + c;
        assert ((if t.triggered then 1 else 0) + c) * interval == (if t.triggered then 1 else 0) * interval + c * interval;
      }
      RunResult(rest.acc, flags)
  }

  /** With a 300 second interval, heartbeats of 100, 100 and 150 seconds fire once,
      on the third tick, for every joined guild, and leave the accumulator at zero. */
  lemma ThreeHeartbeats(guilds: seq<GuildId>)
    ensures OnHeartbeat(0, 100, 300, guilds) == TickResult(100, [], false)
    ensures OnHeartbeat(100, 100, 300, guilds) == TickResult(200, [], false)
    ensures OnHeartbeat(200, 150, 300, guilds) == TickResult(0, guilds, true)
    ensures Run(0, [100, 100, 150], 300, guilds) == RunResult(0, [false, false, true])
  {
    assert [100, 100, 150][1..] == [100, 150];
    assert [100, 150][1..] == [150];
    assert [150][1..] == [];
  }
}

=== FILE: seqs.dfy ===
/** Searching and filtering sequences of rows, the two shapes every store query takes. */
module Seqs {
  import opened Wrappers

  /** Index of the first element satisfying `p`, if any. */
  function FirstIndex<T>(s: seq<T>, p: T -> bool): (r: Option<nat>)
    ensures r.Some? ==> r.value < |s| && p(s[r.value])
    ensures r.Some? ==> forall j :: 0 <= j < r.value ==> !p(s[j])
    ensures r.None? <==> forall j :: 0 <= j < |s| ==> !p(s[j])
  {
    if |s| == 0 then None
    else if p(s[0]) then Some(0)
    else
      match FirstIndex(s[1..], p)
      case None => None
      case Some(i) => Some(i + 1)
  }

  /** The elements satisfying `p`, in their original order. */
  function Filter<T>(s: seq<T>, p: T -> bool): (r: seq<T>)
    ensures |r| <= |s|
    ensures forall i :: 0 <= i < |r| ==> p(r[i])
    ensures (forall i :: 0 <= i < |s| ==> !p(s[i])) ==> r == []
  {
    if |s| == 0 then []
    else if p(s[0]) then [s[0]] + Filter(s[1..], p)
    else Filter(s[1..], p)
  }

  lemma {:induction false} FilterConcat<T>(a: seq<T>, b: seq<T>, p: T -> bool)
    ensures Filter(a + b, p) == Filter(a, p) + Filter(b, p)
  {
    if |a| == 0 {
      assert a + b == b;
    } else {
      assert (a + b)[1..] == a[1..] + b;
      FilterConcat(a[1..], b, p);
    }
  }

  /** Filter keeps every element that satisfies `p`: it loses nothing. */
  lemma {:induction false} FilterKeeps<T>(s: seq<T>, p: T -> bool, i: nat)
    requires i < |s| && p(s[i])
    ensures exists k :: 0 <= k < |Filter(s, p)| && Filter(s, p)[k] == s[i]
  {
    if i == 0 {
      assert Filter(s, p)[0] == s[0];
    } else {
      FilterKeeps(s[1..], p, i - 1);
      var k :| 0 <= k < |Filter(s[1..], p)| && Filter(s[1..], p)[k] == s[1..][i - 1];
      if p(s[0]) {
        assert Filter(s, p)[k + 1] == s[i];
      } else {
        assert Filter(s, p)[k] == s[i];
      }
    }
  }

  /** `idx` lists, in increasing order, the positions of `s` that hold the elements of `r`:
      `r` is a subsequence of `s`, in the same order. */
  ghost predicate IndexedBy<T>(r: seq<T>, s: seq<T>, idx: seq<nat>)
  {
    && |idx| == |r|
    && (forall k :: 0 <= k < |idx| ==> idx[k] < |s| && r[k] == s[idx[k]])
    && (forall k, l :: 0 <= k < l < |idx| ==> idx[k] < idx[l])
  }

  function Shift(idx: seq<nat>): (r: seq<nat>)
    ensures |r| == |idx| && forall k :: 0 <= k < |idx| ==> r[k] == idx[k] + 1
  {
    seq(|idx|, k requires 0 <= k < |idx| => idx[k] + 1)
  }

  /** Positions of a subsequence of `s[1..]`, shifted by one, with position 0 in front when
      `s[0]` is kept. */
  lemma IndexedByCons<T>(s: seq<T>, rest: seq<T>, idx: seq<nat>, keep: bool)
    requires |s| > 0 && IndexedBy(rest, s[1..], idx)
    ensures IndexedBy((if keep then [s[0]] else []) + rest, s, (if keep then [0] else []) + Shift(idx))
  {
    var r := (if keep then [s[0]] else []) + rest;
    var ix: seq<nat> := (if keep then [0] else []) + Shift(idx);
    var o := if keep then 1 else 0;
    assert |ix| == |r|;
    forall k | 0 <= k < |ix| ensures ix[k] < |s| && r[k] == s[ix[k]] {
      if k >= o {
        assert ix[k] == idx[k - o] + 1 && r[k] == rest[k - o];
      }
    }
    forall k, l | 0 <= k < l < |ix| ensures ix[k] < ix[l] {
      if k >= o {
        assert ix[k] == idx[k - o] + 1 && ix[l] == idx[l - o] + 1;
      } else {
        assert ix[l] == idx[l - o] + 1;
      }
    }
  }

  lemma ShiftKeeps(idx: seq<nat>, i: nat, keep: bool)
    requires i in idx
    ensures i + 1 in (if keep then [0] else []) + Shift(idx)
  {
    var k :| 0 <= k < |idx| && idx[k] == i;
    assert Shift(idx)[k] == i + 1;
  }

  lemma ConsCovers<T>(s: seq<T>, p: T -> bool, idx: seq<nat>)
    requires |s| > 0 && forall i :: 0 <= i < |s| - 1 && p(s[1..][i]) ==> i in idx
    ensures forall i :: 0 <= i < |s| && p(s[i]) ==> i in (if p(s[0]) then [0] else []) + Shift(idx)
  {
    forall i | 0 <= i < |s| && p(s[i]) ensures i in (if p(s[0]) then [0] else []) + Shift(idx) {
      if i > 0 {
        assert p(s[1..][i - 1]);
        ShiftKeeps(idx, i - 1, p(s[0]));
      }
    }
  }

  /** The positions Filter keeps, with every position whose element satisfies `p` among them. */
  lemma {:induction false} FilterIndices<T>(s: seq<T>, p: T -> bool) returns (idx: seq<nat>)
    ensures IndexedBy(Filter(s, p), s, idx)
    ensures forall i :: 0 <= i < |s| && p(s[i]) ==> i in idx
    decreases |s|
  {
    if |s| == 0 {
      idx := [];
      assert IndexedBy(Filter(s, p), s, idx);
    } else {
      var idx' := FilterIndices(s[1..], p);
      IndexedByCons(s, Filter(s[1..], p), idx', p(s[0]));
      idx := (if p(s[0]) then [0] else []) + Shift(idx');
      assert Filter(s, p) == (if p(s[0]) then [s[0]] else []) + Filter(s[1..], p);
      ConsCovers(s, p, idx');
    }
  }

  /** Filter is exactly the in-order subsequence of the elements satisfying `p`. */
  lemma FilterInOrder<T>(s: seq<T>, p: T -> bool)
    ensures exists idx :: IndexedBy(Filter(s, p), s, idx) && forall i :: 0 <= i < |s| && p(s[i]) ==> i in idx
  {
    var idx := FilterIndices(s, p);
  }
}

=== FILE: server.dfy ===
/** The `Server` value the reconciliation pass builds for every monitored endpoint:
    a name, a `host:port` address and whether the last probe reached it. */
module Assets {
  import opened Wrappers
  import opened Strings

  datatype Server = Server(name: string, address: string, online: bool)

  /** Green circle and a space: the endpoint answered. */
  const OnlineGlyph: string := "\U{1F7E2} "
  /** Red circle and a space: the endpoint did not answer. */
  const OfflineGlyph: string := "\U{1F534} "
  /** Desktop computer with the emoji presentation selector, and a space. */
  const DeviceGlyph: string := "\U{1F5A5}\U{FE0F} "
  /** What separates the name from the address in a status line. */
  const AddressSeparator: string := "\n" + DeviceGlyph

  /** The constructor: `online` is false unless the caller says otherwise. */
  function NewServer(name: string, address: string, online: bool := false): (s: Server)
    ensures s.name == name && s.address == address && s.online == online
  {
    Server(name, address, online)
  }

  /** `set("online", value)`: only the reachability flag changes. */
  function SetOnline(s: Server, value: bool): (t: Server)
    ensures t.online == value
    ensures t.name == s.name && t.address == s.address
  {
    s.(online := value)
  }

  function StatusGlyph(online: bool): string
  {
    if online then OnlineGlyph else OfflineGlyph
  }

  /** `__toString`: the glyph, the name, then the device glyph and the address on a second line. */
  function ToString(s: Server): (r: string)
    ensures OnlineGlyph <= r <==> s.online
    ensures OfflineGlyph <= r <==> !s.online
  {
    var r := StatusGlyph(s.online) + s.name + AddressSeparator + s.address;
    assert r[..2] == StatusGlyph(s.online);
    assert OnlineGlyph[0] != OfflineGlyph[0];
    assert r[0] == StatusGlyph(s.online)[0];
    r
  }

  /** Reads a status line back: the inverse of `ToString` for names without a newline. */
  function ParseStatusLine(line: string): Option<Server>
  {
    var online := OnlineGlyph <= line;
    if !online && !(OfflineGlyph <= line) then None
    else
      match SplitFirst(line[2..], AddressSeparator)
      case None => None
      case Some((name, address)) => Some(Server(name, address, online))
  }

  /** Splitting a status line at the first separator recovers the glyph with the name, and the address. */
  lemma ToStringSplit(s: Server)
    requires '\n' !in s.name
    ensures SplitFirst(ToString(s), AddressSeparator) == Some((StatusGlyph(s.online) + s.name, s.address))
  {
    var a := StatusGlyph(s.online) + s.name;
    assert '\n' !in a by {
      forall k | 0 <= k < |a| ensures a[k] != '\n' {
        if k >= 2 { assert a[k] == s.name[k - 2]; }
      }
    }
    SplitFirstAt(a, AddressSeparator, s.address);
  }

  lemma ParseToString(s: Server)
    requires '\n' !in s.name
    ensures ParseStatusLine(ToString(s)) == Some(s)
  {
    var line := ToString(s);
    var rest := s.name + AddressSeparator + s.address;
    assert line[2..] == rest;
    SplitFirstAt(s.name, AddressSeparator, s.address);
  }

  /** Two servers with newline-free names render alike only when they are the same server. */
  lemma ToStringInjective(s: Server, t: Server)
    requires '\n' !in s.name && '\n' !in t.name
    requires ToString(s) == ToString(t)
    ensures s == t
  {
    ParseToString(s);
    ParseToString(t);
  }
}

=== FILE: store.dfy ===
/** The three tables the bot keeps (`guilds`, `servers`, `configurations`) as
    sequences of rows in insertion order, and the existence checks and lookups
    the handlers run against them. A lookup returns the first matching row. */
module Store {
  import opened Wrappers
  import opened Seqs

  type Timestamp = string

  /** Discord's id of a guild (a snowflake, carried as text). */
  datatype GuildId = GuildId(snowflake: string)

  /** The auto-increment `guilds.id` of the store. */
  datatype DbGuildId = DbGuildId(n: nat)

  /** The `guild_id` column of `servers` and `configurations`: an internal id, or null. */
  type GuildRef = Option<DbGuildId>

  datatype GuildRow = GuildRow(
    id: DbGuildId,
    guildId: GuildId,
    name: string,
    createdAt: Timestamp,
    updatedAt: Timestamp,
    deletedAt: Option<Timestamp>)

  datatype ServerRow = ServerRow(
    guild: GuildRef,
    name: string,
    address: string,
    protocol: string,
    createdAt: Timestamp,
    updatedAt: Timestamp,
    deletedAt: Option<Timestamp>)

  datatype ConfigRow = ConfigRow(guild: GuildRef, keyword: string, kind: string, value: string)

  /** `nextId` is the next value of the `guilds.id` auto-increment. */
  datatype Db = Db(guilds: seq<GuildRow>, servers: seq<ServerRow>, configs: seq<ConfigRow>, nextId: nat)

  const MessageChannel: string := "message_channel"
  const MessageId: string := "message_id"
  const CommandsRegistered: string := "commands_registered"

  /** `has("guilds", ["guild_id" => g])` */
  predicate HasGuild(db: Db, g: GuildId)
  {
    exists i :: 0 <= i < |db.guilds| && db.guilds[i].guildId == g
  }

  /** `has("guilds", ["guild_id" => g, "deleted_at[!]" => null])` */
  predicate HasDeletedGuild(db: Db, g: GuildId)
  {
    exists i :: 0 <= i < |db.guilds| && db.guilds[i].guildId == g && db.guilds[i].deletedAt.Some?
  }

  predicate IsGuild(r: GuildRow, g: GuildId)
  {
    r.guildId == g
  }

  predicate IsActiveGuild(r: GuildRow, g: GuildId)
  {
    r.guildId == g && r.deletedAt.None?
  }

  /** `get("guilds", "id", ["guild_id" => g])`: null when the guild has no row. */
  function FirstGuildRef(db: Db, g: GuildId): (r: GuildRef)
    ensures r.Some? <==> HasGuild(db, g)
    ensures r.Some? ==> exists i :: 0 <= i < |db.guilds| && db.guilds[i].guildId == g && db.guilds[i].id == r.value
  {
    match FirstIndex(db.guilds, (row: GuildRow) => IsGuild(row, g))
    case None => None
    case Some(i) => Some(db.guilds[i].id)
  }

  /** `get("guilds", "id", ["guild_id" => g, "deleted_at" => null])` */
  function ActiveGuildRef(db: Db, g: GuildId): (r: GuildRef)
    ensures r.Some? <==> exists i :: 0 <= i < |db.guilds| && IsActiveGuild(db.guilds[i], g)
    ensures r.Some? ==> exists i :: 0 <= i < |db.guilds| && IsActiveGuild(db.guilds[i], g) && db.guilds[i].id == r.value
  {
    match FirstIndex(db.guilds, (row: GuildRow) => IsActiveGuild(row, g))
    case None => None
    case Some(i) => Some(db.guilds[i].id)
  }

  /** With no soft-deleted row for the guild, both guild lookups find the same row. */
  lemma ActiveIsFirst(db: Db, g: GuildId)
    requires !HasDeletedGuild(db, g)
    ensures ActiveGuildRef(db, g) == FirstGuildRef(db, g)
  {
    var f := FirstIndex(db.guilds, (row: GuildRow) => IsGuild(row, g));
    var a := FirstIndex(db.guilds, (row: GuildRow) => IsActiveGuild(row, g));
    if f.Some? {
      assert IsActiveGuild(db.guilds[f.value], g);
      assert a.Some?;
      assert a.value == f.value;
    } else {
      assert a.None?;
    }
  }

  predicate IsActiveServerOf(r: ServerRow, g: GuildRef)
  {
    r.guild == g && r.deletedAt.None?
  }

  /** `select("servers", ..., ["guild_id" => g, "deleted_at" => null])`, in load order. */
  function ActiveServers(db: Db, g: GuildRef): (r: seq<ServerRow>)
    ensures forall i :: 0 <= i < |r| ==> IsActiveServerOf(r[i], g)
    ensures |r| == 0 <==> forall i :: 0 <= i < |db.servers| ==> !IsActiveServerOf(db.servers[i], g)
    ensures forall i :: 0 <= i < |db.servers| && IsActiveServerOf(db.servers[i], g) ==> db.servers[i] in r
  {
    var r := Filter(db.servers, (row: ServerRow) => IsActiveServerOf(row, g));
    assert forall i :: 0 <= i < |db.servers| && IsActiveServerOf(db.servers[i], g) ==> db.servers[i] in r by {
      forall i | 0 <= i < |db.servers| && IsActiveServerOf(db.servers[i], g) ensures db.servers[i] in r {
        FilterKeeps(db.servers, (row: ServerRow) => IsActiveServerOf(row, g), i);
      }
    }
    assert |r| == 0 ==> forall i :: 0 <= i < |db.servers| ==> !IsActiveServerOf(db.servers[i], g) by {
      forall i | 0 <= i < |db.servers| && IsActiveServerOf(db.servers[i], g) ensures |r| > 0 {
        FilterKeeps(db.servers, (row: ServerRow) => IsActiveServerOf(row, g), i);
      }
    }
    r
  }

  /** The loaded servers keep their store order: they are the guild's active rows, each
      at an increasing position of the table, and no active row of the guild is skipped. */
  lemma ActiveServersInOrder(db: Db, g: GuildRef)
    ensures exists idx ::
              && IndexedBy(ActiveServers(db, g), db.servers, idx)
              && forall i :: 0 <= i < |db.servers| && IsActiveServerOf(db.servers[i], g) ==> i in idx
  {
    var p := (row: ServerRow) => IsActiveServerOf(row, g);
    assert ActiveServers(db, g) == Filter(db.servers, p);
    FilterInOrder(db.servers, p);
  }

  /** `has("servers", ["guild_id" => g, "name" => name, "deleted_at" => null])` */
  predicate HasActiveServerNamed(db: Db, g: GuildRef, name: string)
  {
    exists i :: 0 <= i < |db.servers| && IsActiveServerOf(db.servers[i], g) && db.servers[i].name == name
  }

  predicate IsConfig(r: ConfigRow, g: GuildRef, keyword: string)
  {
    r.guild == g && r.keyword == keyword
  }

  /** `has("configurations", ["guild_id" => g, "keyword" => keyword])` */
  predicate HasConfig(db: Db, g: GuildRef, keyword: string)
  {
    exists i :: 0 <= i < |db.configs| && IsConfig(db.configs[i], g, keyword)
  }

  /** `get("configurations", "value", ["guild_id" => g, "keyword" => keyword])` */
  function ConfigValue(db: Db, g: GuildRef, keyword: string): (r: Option<string>)
    ensures r.Some? <==> HasConfig(db, g, keyword)
    ensures r.Some? ==> exists i :: 0 <= i < |db.configs| && IsConfig(db.configs[i], g, keyword) && db.configs[i].value == r.value
  {
    match FirstIndex(db.configs, (row: ConfigRow) => IsConfig(row, g, keyword))
    case None => None
    case Some(i) => Some(db.configs[i].value)
  }

  /** Rows appended after existing ones do not change what a lookup finds first. */
  lemma ConfigValueAppend(db: Db, rows: seq<ConfigRow>, g: GuildRef, keyword: string)
    requires HasConfig(db, g, keyword)
    ensures ConfigValue(db.(configs := db.configs + rows), g, keyword) == ConfigValue(db, g, keyword)
  {
    var p := (row: ConfigRow) => IsConfig(row, g, keyword);
    var db' := db.(configs := db.configs + rows);
    var i := FirstIndex(db.configs, p);
    var j := FirstIndex(db'.configs, p);
    assert db'.configs[i.value] == db.configs[i.value];
    assert j.Some? && j.value <= i.value;
    assert db'.configs[j.value] == db.configs[j.value];
  }

  /** Inserting a guild row: created and updated now, not soft-deleted, next auto-increment id. */
  function InsertGuild(db: Db, g: GuildId, name: string, now: Timestamp): (db': Db)
    ensures db'.guilds == db.guilds + [GuildRow(DbGuildId(db.nextId), g, name, now, now, None)]
    ensures db'.nextId == db.nextId + 1
    ensures db'.servers == db.servers && db'.configs == db.configs
  {
    db.(guilds := db.guilds + [GuildRow(DbGuildId(db.nextId), g, name, now, now, None)], nextId := db.nextId + 1)
  }

  /** A guild row appended for a guild that had none becomes the one its lookup finds. */
  lemma FirstGuildRefAfterInsert(db: Db, g: GuildId, name: string, now: Timestamp)
    requires !HasGuild(db, g)
    ensures FirstGuildRef(InsertGuild(db, g, name, now), g) == Some(DbGuildId(db.nextId))
  {
    var db' := InsertGuild(db, g, name, now);
    var i := FirstIndex(db'.guilds, (row: GuildRow) => IsGuild(row, g));
    assert IsGuild(db'.guilds[|db.guilds|], g);
    assert forall j :: 0 <= j < |db.guilds| ==> db'.guilds[j] == db.guilds[j];
    assert i == Some(|db.guilds|);
  }

  /** Inserting a `configurations` row of type "string". */
  function InsertConfig(db: Db, g: GuildRef, keyword: string, value: string): (db': Db)
    ensures db'.configs == db.configs + [ConfigRow(g, keyword, "string", value)]
    ensures db'.guilds == db.guilds && db'.servers == db.servers && db'.nextId == db.nextId
    ensures HasConfig(db', g, keyword)
  {
    var db' := db.(configs := db.configs + [ConfigRow(g, keyword, "string", value)]);
    assert IsConfig(db'.configs[|db.configs|], g, keyword);
    db'
  }
}

=== FILE: strings.dfy ===
/** The string primitives the bot relies on: PHP's explode with a one-character
    delimiter, rtrim with a character list, a first-occurrence split, and the
    decimal rendering of integers used in string interpolation. */
module Strings {
  import opened Wrappers

  /** explode(d, s): the pieces of `s` between occurrences of `d`; never empty. */
  function Split(s: string, d: char): (parts: seq<string>)
    ensures |parts| >= 1
    ensures forall i :: 0 <= i < |parts| ==> d !in parts[i]
    decreases |s|
  {
    if |s| == 0 then [""]
    else if s[0] == d then [""] + Split(s[1..], d)
    else
      var rest := Split(s[1..], d);
      [[s[0]] + rest[0]] + rest[1..]
  }

  /** implode(d, parts): the pieces glued back together with `d` between them. */
  function Join(parts: seq<string>, d: char): string
  {
    if |parts| == 0 then ""
    else if |parts| == 1 then parts[0]
    else parts[0] + [d] + Join(parts[1..], d)
  }

  /** Gluing the pieces back together gives the original string. */
  lemma {:induction false} JoinSplit(s: string, d: char)
    ensures Join(Split(s, d), d) == s
    decreases |s|
  {
    if |s| == 0 {
    } else if s[0] == d {
      JoinSplit(s[1..], d);
      assert s == [d] + s[1..];
    } else {
      var rest := Split(s[1..], d);
      JoinSplit(s[1..], d);
      if |rest| == 1 {
        assert s == [s[0]] + rest[0];
      } else {
        assert Join(rest, d) == rest[0] + [d] + Join(rest[1..], d);
        assert ([[s[0]] + rest[0]] + rest[1..])[1..] == rest[1..];
        assert s == [s[0]] + s[1..];
      }
    }
  }

  /** A string without the delimiter is a single piece. */
  lemma {:induction false} SplitNoDelimiter(a: string, d: char)
    requires d !in a
    ensures Split(a, d) == [a]
    decreases |a|
  {
    if |a| > 0 {
      assert d !in a[1..] by {
        forall k | 0 <= k < |a[1..]| ensures a[1..][k] != d { assert a[1..][k] == a[k + 1]; }
      }
      SplitNoDelimiter(a[1..], d);
      assert a == [a[0]] + a[1..];
    }
  }

  /** The first piece ends at the first delimiter. */
  lemma {:induction false} SplitConcat(a: string, b: string, d: char)
    requires d !in a
    ensures Split(a + [d] + b, d) == [a] + Split(b, d)
    decreases |a|
  {
    if |a| == 0 {
      assert a + [d] + b == [d] + b;
      assert ([d] + b)[1..] == b;
    } else {
      var s := a + [d] + b;
      assert s[1..] == a[1..] + [d] + b;
      assert d !in a[1..] by {
        forall k | 0 <= k < |a[1..]| ensures a[1..][k] != d { assert a[1..][k] == a[k + 1]; }
      }
      SplitConcat(a[1..], b, d);
      assert [s[0]] + a[1..] == a;
    }
  }

  /** Splitting a join of delimiter-free pieces gives the pieces back. */
  lemma {:induction false} SplitJoin(parts: seq<string>, d: char)
    requires |parts| >= 1
    requires forall i :: 0 <= i < |parts| ==> d !in parts[i]
    ensures Split(Join(parts, d), d) == parts
    decreases |parts|
  {
    if |parts| == 1 {
      SplitNoDelimiter(parts[0], d);
    } else {
      SplitJoin(parts[1..], d);
      SplitConcat(parts[0], Join(parts[1..], d), d);
      assert [parts[0]] + parts[1..] == parts;
    }
  }

  /** rtrim(s, cs): `s` without its longest suffix of characters from `cs`. */
  function RTrim(s: string, cs: set<char>): (r: string)
    ensures r <= s
    ensures |r| == 0 || r[|r| - 1] !in cs
    ensures forall i :: |r| <= i < |s| ==> s[i] in cs
    decreases |s|
  {
    if |s| > 0 && s[|s| - 1] in cs then RTrim(s[..|s| - 1], cs) else s
  }

  predicate OccursAt(s: string, sep: string, i: nat)
  {
    i + |sep| <= |s| && s[i..i + |sep|] == sep
  }

  /** strpos(s, sep, i): the first position at or after `i` where `sep` occurs. */
  function FindFrom(s: string, sep: string, i: nat): (r: Option<nat>)
    requires i <= |s|
    ensures r.Some? ==> i <= r.value && OccursAt(s, sep, r.value)
    ensures r.Some? ==> forall k :: i <= k < r.value ==> !OccursAt(s, sep, k)
    ensures r.None? ==> forall k :: i <= k <= |s| ==> !OccursAt(s, sep, k)
    decreases |s| - i
  {
    if OccursAt(s, sep, i) then Some(i)
    else if i == |s| then None
    else FindFrom(s, sep, i + 1)
  }

  /** explode(sep, s, 2): the text before and after the first `sep`, if there is one. */
  function SplitFirst(s: string, sep: string): (r: Option<(string, string)>)
    ensures r.Some? ==> r.value.0 + sep + r.value.1 == s
    ensures r.None? ==> forall k :: 0 <= k <= |s| ==> !OccursAt(s, sep, k)
  {
    match FindFrom(s, sep, 0)
    case None => None
    case Some(k) =>
      assert s == s[..k] + s[k..k + |sep|] + s[k + |sep|..];
      Some((s[..k], s[k + |sep|..]))
  }

  /** When the text before `sep` cannot start an occurrence of it, the split happens right there. */
  lemma SplitFirstAt(a: string, sep: string, b: string)
    requires |sep| > 0 && sep[0] !in a
    ensures SplitFirst(a + sep + b, sep) == Some((a, b))
  {
    var s := a + sep + b;
    forall k | 0 <= k < |a| ensures !OccursAt(s, sep, k) {
      assert s[k] == a[k];
    }
    assert s[|a|..|a| + |sep|] == sep;
    assert OccursAt(s, sep, |a|);
    var r := FindFrom(s, sep, 0);
    assert r == Some(|a|);
    assert s[..|a|] == a;
    assert s[|a| + |sep|..] == b;
  }

  predicate IsDigit(c: char)
  {
    '0' <= c <= '9'
  }

  predicate AllDigits(s: string)
  {
    forall i :: 0 <= i < |s| ==> IsDigit(s[i])
  }

  function DigitChar(d: nat): (c: char)
    requires d < 10
    ensures IsDigit(c) && (c as int) - ('0' as int) == d
  {
    (('0' as int) + d) as char
  }

  function DigitValue(c: char): (d: nat)
    requires IsDigit(c)
    ensures d < 10 && DigitChar(d) == c
  {
    (c as int) - ('0' as int)
  }

  /** The decimal text PHP interpolates for a non-negative integer. */
  function NatToString(n: nat): (r: string)
    ensures |r| >= 1 && AllDigits(r)
    ensures |r| > 1 ==> r[0] != '0'
    decreases n
  {
    if n < 10 then [DigitChar(n)] else NatToString(n / 10) + [DigitChar(n % 10)]
  }

  function DigitsValue(s: string): nat
    requires AllDigits(s)
    decreases |s|
  {
    if |s| == 0 then 0 else DigitsValue(s[..|s| - 1]) * 10 + DigitValue(s[|s| - 1])
  }

  /** The integer a non-empty all-digit string denotes. */
  function ParseNat(s: string): Option<nat>
  {
    if |s| > 0 && AllDigits(s) then Some(DigitsValue(s)) else None
  }

  /** Canonical decimals: digits only, no leading zero unless the number is 0. */
  predicate Canonical(s: string)
  {
    |s| >= 1 && AllDigits(s) && (|s| > 1 ==> s[0] != '0')
  }

  lemma {:induction false} ParseNatToString(n: nat)
    ensures ParseNat(NatToString(n)) == Some(n)
    decreases n
  {
    var r := NatToString(n);
    if n < 10 {
      assert r[..0] == [];
      assert DigitsValue(r) == DigitValue(r[0]) == n;
    } else {
      ParseNatToString(n / 10);
      assert r[..|r| - 1] == NatToString(n / 10);
      assert DigitValue(r[|r| - 1]) == n % 10;
      assert DigitsValue(r) == (n / 10) * 10 + n % 10;
    }
  }

  lemma {:induction false} CanonicalPositive(s: string)
    requires Canonical(s) && s[0] != '0'
    ensures DigitsValue(s) >= 1
    decreases |s|
  {
    if |s| > 1 {
      var p := s[..|s| - 1];
      assert p[0] == s[0];
      CanonicalPositive(p);
    }
  }

  lemma {:induction false} NatToStringParse(s: string)
    requires Canonical(s)
    ensures NatToString(DigitsValue(s)) == s
    decreases |s|
  {
    if |s| > 1 {
      var p := s[..|s| - 1];
      assert p[0] == s[0];
      CanonicalPositive(p);
      NatToStringParse(p);
      var v := DigitsValue(s);
      assert v / 10 == DigitsValue(p) && v % 10 == DigitValue(s[|s| - 1]);
      assert s == p + [s[|s| - 1]];
    }
  }

  /** Decimal rendering is injective, so comparing renderings compares numbers. */
  lemma NatToStringInjective(m: nat, n: nat)
    requires NatToString(m) == NatToString(n)
    ensures m == n
  {
    ParseNatToString(m);
    ParseNatToString(n);
  }
}

=== FILE: wrappers.dfy ===
/** Optional values: a missing row, a null column, an undefined array offset. */
module Wrappers {

  datatype Option<+T> = None | Some(value: T)
}
